=== FILE: README.md ===
# Sri Mandir streak engine and helpers, modelled in Dafny

This project models the decision logic of a daily devotional-ritual tracker.

The core is the **streak engine**. A user reports a ritual completion for a calendar date. The engine then decides:
- the new current streak (consecutive days of completion);
- the new longest streak;
- whether a milestone (3, 7, 21 or 40 days) was reached;
- how the user's stored streak record changes.

The same decision is written twice in the source: once in the web route, once in the Python backend. Both copies are modelled. They are one function, `StreakEngine.Complete`, and the parameter `Implementation` selects the copy.

Around the engine the project models the small pure helpers the app relies on:
- how each implementation reads a stored streak document whose counts are missing;
- the daily deity rotation and the deity lookups;
- the weekday-to-deity endpoint, in both its web and Python versions;
- the onboarding deity-selection screen, as a state machine;
- the request validators (reminder-time pattern, bounded integers, lengths);
- the next-milestone lookup of the streaks screen;
- the countdown timer's `m:ss` display and its tick, pause, resume and reset transitions.

## Modelling choices

- **Dates.** Dates stay the strings the caller submitted, because the source compares them as strings for the "already completed today" check. The calendar parse (`new Date(...)` in the route, `strptime` in the backend) is the parameter `dayOf: string -> int`. It maps a date string to its day number, so the day difference is a subtraction of day numbers instead of milliseconds. Because of this, the branch where two unequal strings denote the same day can still be reached. Statements relating the two implementations use one shared `dayOf`. `StreakProperties.OnlyTheDayDifferenceMatters` carries them over to two parses that agree on the day difference, and `StreakProperties.ParsesDisagreeOffUtc` shows a pair of real parses that do not.
- **Truthiness.** `if (lastCompleted)` and `if last_completed:` treat an empty stored date like an absent one (`HasPriorDate`).
- **Clock reads become parameters.** The current day of the year (deity rotation) and the current weekday (weekday endpoint) are inputs.
- **Storage.** The streaks collection is a `map` from user id to record (`StreakStore`). Only the decision each endpoint makes about it is modelled.
- **Weekday maps.** The web route (lib/types.ts:64-70) and the backend (backend/server.py:78-84) each define a weekday-to-deity map. The two maps are identical, so they are merged into one `WEEKDAY_DEITY_MAP`, and `WeekdayDeity.EndpointsAgree` follows from that merge.
- **JSON numbers.** Request numbers are `real`. zod's `.int()` is the test `x.Floor as real == x`.
- **Reference reading of a history.** `StreakHistory` defines the meaning of the streak independently of the engine. A history of dates is first collapsed: repeated reports of the same day count once. The current streak is then the run of consecutive calendar days at the end of that history. The longest streak is the longest such run anywhere in it. For histories of non-empty date strings in which each calendar day is written one way, `ReplayMatchesRuns` proves that the engine computes exactly this.

## Notes on the two implementations

- On a zero-day difference between unequal date strings, the web route writes `current || 1` and the Python backend writes `current`. When both read dates through the same calendar parse, they disagree only when the stored streak is 0. `StreakProperties.ImplementationsAgree` pins down exactly when the two differ, and `StreakProperties.ImplementationsDivergeOnZeroDay` exhibits one such input. `StreakHistory.ImplementationsAgreeFromFresh` shows that, under one parse, no record produced from a fresh one ever reaches that situation. The real parses can differ by a day: JavaScript reads an ISO date-only string at UTC midnight and any other spelling at local midnight, while `strptime` reads both as the calendar day. Off UTC, a non-ISO date can therefore land in the route's zero-day branch while Python sees one day. `StreakProperties.ParsesDisagreeOffUtc` shows a stored streak of 5 that the route keeps at 5 and the backend raises to 6.
- The milestone flag is raised whenever the new streak is in `[3, 7, 21, 40]`. Over consecutive days from a fresh record it is therefore raised on the 3rd call as well as on the 7th (`StreakHistory.EightDayRunMilestones`).
- The two read a stored document differently when a count is missing. The web route falls back with `|| 0`. The backend raises on `streak["current_streak"]` and reads `longest_streak` with a default of 0. `StoredDocument` models both readings and relates them to the engine.

## Model

| member | source | states |
|---|---|---|
| `Milestones.FirstAbove` | frontend/app/streaks.tsx:49 | `MILESTONES.find(m => m > current)`: the index found holds the first element above `c`, every earlier element is at most `c`, and the result is absent exactly when no element exceeds `c` |
| `Milestones.NextMilestone` | frontend/app/streaks.tsx:47-50 | the next milestone is always one of 3, 7, 21, 40; below 40 it is the smallest milestone strictly above the current streak; from 40 on it is 40 |
| `Milestones.DaysToGo` | frontend/app/streaks.tsx:93 | the "days to go" figure is positive whenever the streak is below 40, and adding it to the streak lands on a milestone, namely the next one: no milestone above the streak comes before it |
| `Milestones.MissingStreakTargetsFirstMilestone` | frontend/app/streaks.tsx:48 | a missing or zero streak is treated as 0, so the next milestone is 3, three days away |
| `StreakEngine.Fresh` | app/api/rituals/complete/route.ts:25-32 | a new user's record has zero counts, no completion date and the unused grace fields cleared |
| `StreakEngine.Complete` | app/api/rituals/complete/route.ts:40-97 | a same-date replay writes nothing and answers the stored streak; any other date sets exactly the current streak, the longest streak and the date, with the longest at least the old longest and at least the new streak, and the milestone flag set iff the new streak is 3, 7, 21 or 40 |
| `StreakProperties.FirstCompletionStartsStreak` | app/api/rituals/complete/route.ts:52-54 | with no prior date (absent or empty) the new streak is 1 |
| `StreakProperties.NextDayExtendsStreak` | app/api/rituals/complete/route.ts:61-63 | a completion on the next calendar day gives the previous streak plus one |
| `StreakProperties.SameDayOtherSpelling` | app/api/rituals/complete/route.ts:64-66 | unequal strings for the same day: the web route keeps the streak but lifts 0 to 1, the Python backend (server.py:207-209) keeps it unchanged |
| `StreakProperties.GapResetsStreak` | app/api/rituals/complete/route.ts:67-70 | a gap of two or more days, or a backdated date, resets the streak to 1 while the longest streak is kept |
| `StreakProperties.CompleteIsIdempotent` | app/api/rituals/complete/route.ts:43-49 | submitting the just-recorded date again writes nothing and reports the same streak |
| `StreakProperties.CompletePreservesValid` | app/api/rituals/complete/route.ts:74 | `0 <= current <= longest` holds after every completion, in both implementations |
| `StreakProperties.ImplementationsAgree` | backend/server.py:198-214 | the two implementations give the same record and answer unless unequal strings denote the same day while the stored streak is 0 |
| `StreakProperties.ImplementationsDivergeOnZeroDay` | backend/server.py:207-209 | a concrete zero-streak record on which the web route answers streak 1 and the backend streak 0 |
| `StreakProperties.OnlyTheDayDifferenceMatters` | app/api/rituals/complete/route.ts:55-59 | the engine uses the calendar parse only through the day difference between the stored date and today: two parses that agree on it give the same record and answer |
| `StreakProperties.ParsesDisagreeOffUtc` | app/api/rituals/complete/route.ts:55-66 | with the route reading "2024-01-10" and "2024-1-11" as the same day (a server at UTC+5:30) and `strptime` (backend/server.py:200-206) a day apart, a stored streak of 5 stays 5 in the web route and becomes 6 in the backend |
| `StreakHistory.ReplayMatchesRuns` | app/api/rituals/complete/route.ts:51-85 | replaying canonical dates from a fresh record gives, as current streak, the run of consecutive days ending the collapsed history, and, as longest streak, the longest run in it |
| `StreakHistory.ConsecutiveRunCounts` | app/api/rituals/complete/route.ts:61-74 | k consecutive daily completions from a fresh record leave current and longest streak both equal to k |
| `StreakHistory.ConsecutiveRunMilestones` | app/api/rituals/complete/route.ts:87-89 | the k-th consecutive daily completion answers streak k, longest k, and a milestone iff k is 3, 7, 21 or 40 |
| `StreakHistory.EightDayRunMilestones` | app/api/rituals/complete/route.ts:88-89 | over eight consecutive days from a fresh record the milestone fires on the 3rd and 7th call and on no other |
| `StreakHistory.ReplayPreservesValid` | app/api/rituals/complete/route.ts:74 | over any sequence of completions the record keeps `0 <= current <= longest` |
| `StreakHistory.LongestNeverDecreases` | backend/server.py:217 | the longest streak after a history is at least the longest streak after any prefix of it |
| `StreakHistory.ReplayKeepsStarted` | backend/server.py:199-214 | every record produced from a fresh one has a current streak of at least 1 once a date is stored |
| `StreakHistory.ImplementationsAgreeFromFresh` | backend/server.py:207-209 | fed the same completions from a fresh record, both implementations keep identical records |
| `StreakStore.InitStreak` | backend/server.py:146-159 | the zero record is inserted only when the user has none, other records are untouched, and the answer is the zero record either way |
| `StreakStore.CompleteRitual` | backend/server.py:179-232 | the endpoint creates a missing record, writes the engine's record back for that user only, and writes nothing new on a same-date replay |
| `StreakStore.InitStreakIsIdempotent` | backend/server.py:156-158 | initialising twice leaves the collection as initialising once |
| `StreakStore.CompleteRitualIsIdempotent` | backend/server.py:194-196 | submitting a completion twice leaves the collection as the first submission did, and the second answer is "already completed" with the stored streak |
| `StoredDocument.OrElse` | app/api/rituals/complete/route.ts:63 | JavaScript's falsy fallback on a stored count (`streak.current_streak` or 0): the default exactly when the count is missing or 0, the count otherwise |
| `StoredDocument.ReadStored` | backend/server.py:217 | a stored document read as an engine record: missing counts become 0, every other field is carried over |
| `StoredDocument.WebRouteNewStreak` | app/api/rituals/complete/route.ts:52-71 | the web route's new streak on the raw document, with its falsy fallbacks: a document without a current count always gets streak 1, and a non-negative stored count gives a positive streak; `WebRouteReadsMissingCountsAsZero` ties it to the engine |
| `StoredDocument.WebRouteLongest` | app/api/rituals/complete/route.ts:74 | the larger of the stored longest streak (0 when missing or 0) and the new streak: at least both, and equal to one of them |
| `StoredDocument.BackendNewStreak` | backend/server.py:198-214 | the backend's new streak on the raw document: it fails only on a document with a stored date and no current count, a first completion gives 1, and a non-negative stored count gives a non-negative streak; `BackendReadsStoredDocument` ties it to the engine |
| `StoredDocument.BackendLongest` | backend/server.py:217 | the larger of the stored longest streak (0 when missing) and the new streak: at least both, and equal to one of them |
| `StoredDocument.WebRouteReadsMissingCountsAsZero` | app/api/rituals/complete/route.ts:61-74 | the web route's streak and longest streak, computed with its falsy fallbacks to 0 and 1 on the raw document, equal what the engine writes for the document read with missing counts as 0 |
| `StoredDocument.AbsentCurrentCountsAsZero` | app/api/rituals/complete/route.ts:61-63 | a document without a current count, completed the next day, gets streak 1 from the web route |
| `StoredDocument.BackendReadsStoredDocument` | backend/server.py:204-217 | the backend fails exactly when it needs the current count and the document lacks it (a one- or zero-day difference); otherwise it writes what the engine computes |
| `DeityRotation.TodaysDeity` | lib/utils/deityRotation.ts:7-26 | an absent or empty selection gives "ganesha", a single entry is always chosen, and otherwise the result is a member of the selection |
| `DeityRotation.RotationIsPeriodic` | lib/utils/deityRotation.ts:24-25 | the rotation repeats with the length of the selection |
| `DeityRotation.RotationPosition` | lib/utils/deityRotation.ts:24-25 | with two or more entries, on day `k * n + i` the entry at position `i` of the selection is shown, so the rotation walks the list forwards in its order |
| `DeityRotation.RotationVisitsEveryEntry` | lib/utils/deityRotation.ts:24-25 | within any n consecutive days each of the n selected deities comes up |
| `DeityRotation.FindDeity` | lib/utils/deityRotation.ts:32 | `DEITIES.find`: the position found is the first entry with that id; absent exactly when no entry has it |
| `DeityRotation.DeityDisplay` | lib/utils/deityRotation.ts:31-41 | a known id gives its table entry, an unknown id the written-out Ganesha record |
| `DeityRotation.DeityById` | lib/utils/deityRotation.ts:46-48 | the result is always a table entry: the one with that id, or the first entry when the id is unknown |
| `DeityRotation.DeityIdsAreDistinct` | lib/utils/constants.ts:1-10 | no two entries of the deity table share an id |
| `DeityRotation.DisplayAgreesWithById` | lib/utils/deityRotation.ts:31-48 | the two lookups agree on every id, because the display fallback equals the first table entry |
| `WeekdayDeity.MondayBased` | app/api/weekday-deity/route.ts:9-12 | the converted weekday lies in 0..6, and Sunday-based numbering is recovered by adding one modulo 7 |
| `WeekdayDeity.ConversionIsBijection` | app/api/weekday-deity/route.ts:12 | the conversion and its inverse undo each other on 0..6 |
| `WeekdayDeity.DeityOfWeekday` | app/api/weekday-deity/route.ts:14-18 | the deity is present exactly when the map has the weekday, and is then the map's non-empty entry |
| `WeekdayDeity.DevotionMessage` | app/api/weekday-deity/route.ts:19-21 | with a deity the message is the devotion prefix followed by that deity's name; without one it is the fixed fallback |
| `WeekdayDeity.WebWeekdayDeity` | app/api/weekday-deity/route.ts:6-22 | the web answer's weekday is the Monday-based form of `getDay()`, with that weekday's deity and message |
| `WeekdayDeity.BackendWeekdayDeity` | backend/server.py:266-275 | the Python answer uses the Monday-based weekday as given, with its deity and message |
| `WeekdayDeity.MapCoversFiveWeekdays` | lib/types.ts:64-70 | the map's keys are exactly 0, 1, 2, 4 and 6 |
| `WeekdayDeity.EndpointsAgree` | backend/server.py:78-84 | on the same day the web and Python endpoints give identical answers |
| `WeekdayDeity.ThursdayAndSaturdayFallBack` | backend/server.py:270-274 | weekdays 3 and 5 have no deity and answer "Continue your devotion today" |
| `WeekdayDeity.MessageMentionsDeityIffFound` | app/api/weekday-deity/route.ts:19-21 | the message starts with the devotion prefix iff a deity was found |
| `WeekdayDeity.MessageDeterminesDeity` | app/api/weekday-deity/route.ts:19-21 | different lookups give different messages |
| `DeitySelection.Without` | app/onboarding/deity-selection/page.tsx:19 | `filter(id => id !== x)`: `x` is gone, every other id is kept, and the multiset of ids loses exactly the copies of `x` |
| `DeitySelection.WithoutDistributes` | app/onboarding/deity-selection/page.tsx:19 | filtering works piecewise over concatenation, so the surviving ids keep their order |
| `DeitySelection.SelectPrimary` | app/onboarding/deity-selection/page.tsx:16-21 | the chosen deity becomes primary, leaves the secondaries, the other secondaries stay, and the error is cleared |
| `DeitySelection.ToggleSecondary` | app/onboarding/deity-selection/page.tsx:23-37 | toggling the primary does nothing; a selected secondary is removed and the others keep their order (`filter`); a new one is appended while fewer than 3 are chosen, otherwise the list stays and the limit error is set |
| `DeitySelection.Continue` | app/onboarding/deity-selection/page.tsx:39-50 | Continue goes ahead, carrying the current choice, iff a primary is chosen; otherwise the state only gains the "select your primary" error |
| `DeitySelection.InitialSatisfiesInv` | app/onboarding/deity-selection/page.tsx:12-14 | the screen starts with no primary and no secondaries, which satisfies the invariant |
| `DeitySelection.SelectPrimaryPreservesInv` | app/onboarding/deity-selection/page.tsx:16-21 | choosing a primary keeps at most 3 secondaries, no repeats, and the primary not among them |
| `DeitySelection.ToggleSecondaryPreservesInv` | app/onboarding/deity-selection/page.tsx:23-37 | toggling keeps at most 3 secondaries, no repeats, and the primary not among them |
| `DeitySelection.ToggleTwiceRestores` | app/onboarding/deity-selection/page.tsx:27-34 | adding a new secondary and toggling it again restores the screen exactly |
| `DeitySelection.ContinueAfterPrimary` | app/onboarding/deity-selection/page.tsx:39-50 | after any non-empty primary is chosen, Continue proceeds with it |
| `DeitySelection.ProceedPassesOnboardingSchema` | lib/schemas.ts:69-70 | what the screen hands on passes the onboarding schema's primary and secondary-deity checks |
| `Schemas.ReminderTestMatchesPattern` | lib/schemas.ts:21 | the reminder-time test accepts exactly the strings the anchored hour-colon-minute pattern matches (hour 0-23 with an optional leading 0 or 1, minute 00-59) |
| `Schemas.ReminderClock` | lib/schemas.ts:21 | every accepted reminder time denotes an hour below 24 and a minute below 60 |
| `Schemas.EveryTimeOfDayAccepted` | lib/schemas.ts:21 | every time of day is accepted as `HH:MM` (and as `H:MM` below 10 o'clock) and reads back as the same hour and minute |
| `Schemas.DefaultReminderTimeValid` | lib/schemas.ts:21 | the default "06:30" passes the pattern and denotes 6:30 |
| `Schemas.BoundedInt` | lib/schemas.ts:46 | a number is accepted iff it is whole and within the bounds, and the accepted integer equals it |
| `Schemas.StepsCompleted` | lib/schemas.ts:46 | `steps_completed` is accepted iff it is an integer in 0..8, and defaults to 5 |
| `Schemas.DurationSec` | lib/schemas.ts:49 | `duration_sec` is accepted iff it is a non-negative integer |
| `Schemas.StreakCount` | lib/schemas.ts:34-35 | a streak count is accepted iff it is a non-negative integer, and defaults to 0 |
| `Schemas.UserName` | lib/schemas.ts:5 | a name is accepted iff its length is between 1 and 100 |
| `Schemas.PrimaryDeity` | lib/schemas.ts:19 | a primary deity is accepted iff it is non-empty |
| `Schemas.OnboardingSecondaries` | lib/schemas.ts:70 | onboarding secondaries are accepted iff there are at most 3, and default to none |
| `Schemas.PreferenceSecondaries` | lib/schemas.ts:20 | preference secondaries have no length limit and default to none |
| `Schemas.PreferenceReminderTime` | lib/schemas.ts:21 | a preference reminder time is accepted iff it passes the pattern, and defaults to "06:30", which passes it |
| `Schemas.OnboardingReminderTime` | lib/schemas.ts:71 | the onboarding reminder time is required and accepted iff it passes the same pattern |
| `Schemas.ParseRitualRequest` | lib/schemas.ts:42-50 | a completion request is accepted iff its step count and duration are valid; the entry then has 0..8 steps, a non-negative duration and `completed` defaulting to true |
| `Schemas.ParseOnboarding` | lib/schemas.ts:66-73 | an onboarding request is accepted iff the name length, primary, secondary count and reminder time are all valid |
| `Decimal.NatToString` | components/ui/Timer.tsx:43 | `toString` on a whole number: at least one digit, one digit exactly below 10, and no leading zero except for 0 itself; `Decimal.ParseNatToString` reads it back to the number |
| `Decimal.ParseNatToString` | components/ui/Timer.tsx:43 | reading a spelled number back gives the number |
| `Decimal.PadStart2` | components/ui/Timer.tsx:43 | `padStart(2, '0')`: all digits, length at least 2 (exactly the input's length from two characters on), and the same value |
| `Decimal.PadStart2Contents` | components/ui/Timer.tsx:43 | `padStart(2, '0')` keeps the original string at the end and puts only zeros before it |
| `Timer.Mount` | components/ui/Timer.tsx:18-19 | a mounted timer has its full duration left, satisfies the timer invariant for a non-negative duration, and ticks iff `autoStart` is set and the duration is positive |
| `Timer.FormatTime` | components/ui/Timer.tsx:40-44 | the display is digits, a colon third from the end, and two second digits whose first is 0-5; below ten minutes it is four characters, and from ten minutes on the minutes field has no leading zero |
| `Timer.FormatTimeRoundTrip` | components/ui/Timer.tsx:40-44 | reading the display back as minutes·60 + seconds gives the original number of seconds |
| `Timer.Tick` | components/ui/Timer.tsx:21-36 | without a running interval and time left nothing happens; otherwise one second is taken off, the timer stops on reaching 0, and completion fires exactly on the last second |
| `Timer.Pause` | components/ui/Timer.tsx:72-79 | pausing stops the timer and keeps the time left |
| `Timer.Resume` | components/ui/Timer.tsx:64-71 | starting keeps the time left and runs the timer iff time is left or it was already running |
| `Timer.Reset` | components/ui/Timer.tsx:80-85 | once time has elapsed, reset restores the full duration and stops the timer |
| `Timer.TransitionsPreserveValid` | components/ui/Timer.tsx:18-36 | every transition keeps `0 <= timeLeft <= duration`, so the time left never goes negative |
| `Timer.CountdownCompletesOnce` | components/ui/Timer.tsx:24-33 | after n ticks of a running countdown from t, `max(t - n, 0)` is left, it runs iff n < t, and completion has fired once iff n >= t |
| `Timer.ResetIsIdempotent` | components/ui/Timer.tsx:82-85 | resetting twice equals resetting once, and a reset timer stands stopped at full time |

## Left out

- `StreakProperties.ImplementationsAgree` and `StreakHistory.ImplementationsAgreeFromFresh`: both copies share one `dayOf`. JavaScript reads non-ISO date-only strings at local midnight, so off UTC its day difference can be one off Python's, and then the copies also disagree on a non-zero streak (`StreakProperties.ParsesDisagreeOffUtc`). The agreement is proved only for parses that give the same day difference (`StreakProperties.OnlyTheDayDifferenceMatters`).
- Storage and transport are left out: MongoDB reads and writes, the ritual-history log insert, HTTP routing, response status codes and the HTTP clients. They are I/O, so only the decision each endpoint makes is modelled.
- The millisecond `Date` arithmetic, time zones and daylight-saving time are left out. The calendar parse is the parameter `dayOf`, and clock reads are parameters.
- Malformed date strings are left out. Here JavaScript would compute `NaN` and Python would raise; the caller is expected to reject such strings first.
- Concurrent completions for the same user (the read-modify-write race) are left out. This is a storage-layer concern, not part of the engine.
- `StreakEngine.Complete` works on a record that carries both counts. The web route's `|| 0` and `|| 1` defaults and the backend's missing-key failure are modelled separately in `StoredDocument`. Every document that either code path creates carries both counts. The "already completed" answer on a document without a current count is not modelled. The web route answers without a streak, and the backend raises on `streak["current_streak"]` (backend/server.py:196). `StoredDocument.BackendReadsStoredDocument` covers only completions that are not same-date replays.
- The grace-window fields are left out of the logic. They are carried unchanged, because no logic reads or writes them.
- `Timer.FormatTime`: negative and fractional seconds are not modelled. The time left starts at the duration and never goes below 0 (`Timer.TransitionsPreserveValid`), and ritual step durations are whole seconds.
- `Timer.Tick`: the interval's timing is abstracted. One call stands for one firing.
- The timer's progress percentage is left out, because it is floating-point display only.
- `Schemas.UserName`: counts characters as code points, while zod counts UTF-16 code units. The two differ for characters outside the Basic Multilingual Plane.
- `Schemas.ParseRitualRequest` and `Schemas.ParseOnboarding` report the first refused field only, while zod collects every issue. Non-finite numbers are not modelled.
- Random blessing selection, seed data, audio, notification scheduling, client-side stores, local storage and rendering are left out. They use randomness, foreign APIs or presentation code.
- The mobile app's own copies of the rotation and display helpers are left out. They mirror the web ones, but the display table has five entries.

=== FILE: decimal.dfy ===
/** Decimal digit strings: `Number.prototype.toString` on naturals, `padStart(2, '0')`, and reading them back. */
module Decimal {
  import opened Wrappers

  predicate IsDigit(c: char) {
    '0' <= c <= '9'
  }

  predicate AllDigits(s: string) {
    forall i :: 0 <= i < |s| ==> IsDigit(s[i])
  }

  function DigitChar(d: nat): (c: char)
    requires d < 10
    ensures IsDigit(c)
  {
    (d + '0' as int) as char
  }

  function DigitValue(c: char): (d: nat)
    requires IsDigit(c)
    ensures d < 10 && DigitChar(d) == c
  {
    c as int - '0' as int
  }

  /** The decimal spelling of `n`, without leading zeros. */
  function NatToString(n: nat): (s: string)
    ensures |s| >= 1 && AllDigits(s)
    ensures n < 10 <==> |s| == 1
    ensures n < 100 ==> |s| <= 2
    ensures s[0] == '0' <==> n == 0
    decreases n
  {
    if n < 10 then [DigitChar(n)] else NatToString(n / 10) + [DigitChar(n % 10)]
  }

  /** The value of a string of decimal digits (leading zeros allowed). */
  function ParseNat(s: string): nat
    requires AllDigits(s)
    decreases |s|
  {
    if |s| == 0 then 0 else ParseNat(s[..|s| - 1]) * 10 + DigitValue(s[|s| - 1])
  }

  /** Reading back a spelled number gives the number. */
  lemma {:induction false} ParseNatToString(n: nat)
    ensures ParseNat(NatToString(n)) == n
    decreases n
  {
    if n >= 10 {
      ParseNatToString(n / 10);
      var s := NatToString(n);
      assert s[..|s| - 1] == NatToString(n / 10);
    }
  }

  /** `padStart(2, '0')`: left-pad with zeros to two characters. */
  function PadStart2(s: string): (r: string)
    requires AllDigits(s)
    ensures AllDigits(r) && |r| == if |s| >= 2 then |s| else 2
    ensures ParseNat(r) == ParseNat(s)
  {
    if |s| >= 2 then s
    else
      LeadingZero(s);
      if |s| == 1 then "0" + s
      else LeadingZero("0"); "00"
  }

  /** `padStart` keeps the original string at the end and puts only zeros before it. */
  lemma PadStart2Contents(s: string)
    requires AllDigits(s)
    ensures var r := PadStart2(s);
            r[|r| - |s|..] == s && forall i :: 0 <= i < |r| - |s| ==> r[i] == '0'
  {
  }

  /** A leading zero does not change a digit string's value. */
  lemma {:induction false} LeadingZero(s: string)
    requires AllDigits(s)
    ensures AllDigits("0" + s) && ParseNat("0" + s) == ParseNat(s)
    decreases |s|
  {
    var t := "0" + s;
    if |s| > 0 {
      assert t[..|t| - 1] == "0" + s[..|s| - 1];
      LeadingZero(s[..|s| - 1]);
    }
  }

  /** The value of a two-digit string. */
  lemma ParseTwoDigits(s: string)
    requires AllDigits(s) && |s| == 2
    ensures ParseNat(s) == DigitValue(s[0]) * 10 + DigitValue(s[1])
  {
    var head := s[..1];
    assert head[..0] == [];
    assert ParseNat(head) == DigitValue(s[0]);
  }

  /** The value of a string that should be all digits; `None` if some character is not a digit. */
  function ReadDigits(s: string): Option<nat>
    decreases |s|
  {
    if |s| == 0 then Some(0)
    else if !IsDigit(s[|s| - 1]) then None
    else match ReadDigits(s[..|s| - 1])
      case None => None
      case Some(v) => Some(v * 10 + DigitValue(s[|s| - 1]))
  }

  /** On a digit string, `ReadDigits` succeeds with the string's value. */
  lemma {:induction false} ReadDigitsOfDigits(s: string)
    requires AllDigits(s)
    ensures ReadDigits(s) == Some(ParseNat(s))
    decreases |s|
  {
    if |s| > 0 {
      ReadDigitsOfDigits(s[..|s| - 1]);
    }
  }
}

=== FILE: deity_rotation.dfy ===
/**
 * Daily deity rotation and the deity lookup table. The day of the year,
 * read from the clock in the source, is a parameter here.
 */
module DeityRotation {
  import opened Wrappers

  /** One entry of the deity table. */
  datatype Deity = Deity(id: string, name: string, nameHindi: string, color: string)

  /** The web app's deity table, in display order. */
  const DEITIES: seq<Deity> := [
    Deity("ganesha", "Ganesha", "गणेश", "#FF6B35"),
    Deity("hanuman", "Hanuman", "हनुमान", "#FF4500"),
    Deity("shiva", "Shiva", "शिव", "#4169E1"),
    Deity("durga", "Durga", "दुर्गा", "#DC143C"),
    Deity("krishna", "Krishna", "कृष्ण", "#1E90FF"),
    Deity("rama", "Rama", "राम", "#228B22"),
    Deity("lakshmi", "Lakshmi", "लक्ष्मी", "#FFD700"),
    Deity("saraswati", "Saraswati", "सरस्वती", "#FFFFFF")
  ]

  /** The deity used when nothing is selected or an id is unknown. */
  const DEFAULT_DEITY_ID: string := "ganesha"

  /** The display record `getDeityDisplay` falls back to, written out in the source. */
  const GANESHA_DISPLAY: Deity := Deity("ganesha", "Ganesha", "गणेश", "#FF6B35")

  /**
   * Today's deity from the user's selection: the default when the list is
   * absent or empty, the only entry when there is one, and otherwise the
   * entry at `dayOfYear` modulo the list length.
   */
  function TodaysDeity(selected: Option<seq<string>>, dayOfYear: nat): (r: string)
    ensures selected.None? || selected.value == [] ==> r == DEFAULT_DEITY_ID
    ensures selected.Some? && selected.value != [] ==> r in selected.value
    ensures selected.Some? && |selected.value| == 1 ==> r == selected.value[0]
  {
    if selected.None? || |selected.value| == 0 then DEFAULT_DEITY_ID
    else if |selected.value| == 1 then selected.value[0]
    else selected.value[dayOfYear % |selected.value|]
  }

  /** The rotation repeats with the length of the list. */
  lemma RotationIsPeriodic(selected: seq<string>, dayOfYear: nat)
    requires |selected| > 0
    ensures TodaysDeity(Some(selected), dayOfYear + |selected|) == TodaysDeity(Some(selected), dayOfYear)
  {
    var n := |selected|;
    if n > 1 {
      var q := dayOfYear / n;
      var r := dayOfYear % n;
      assert dayOfYear + n == (q + 1) * n + r;
      ModUnique(dayOfYear + n, n, q + 1, r);
    }
  }

  /** On day `k * n + i` of a rotation over `n >= 2` entries, the entry at position `i` is shown. */
  lemma RotationPosition(selected: seq<string>, k: nat, i: nat)
    requires |selected| >= 2 && i < |selected|
    ensures TodaysDeity(Some(selected), k * |selected| + i) == selected[i]
  {
    ModUnique(k * |selected| + i, |selected|, k, i);
  }

  /** Within any `n` consecutive days, every one of the `n` selected entries comes up. */
  lemma RotationVisitsEveryEntry(selected: seq<string>, start: nat, i: nat)
    requires i < |selected|
    ensures exists d: nat :: start <= d < start + |selected| && TodaysDeity(Some(selected), d) == selected[i]
  {
    var n := |selected|;
    var q := (i - start) / n;
    var d: nat := start + (i - start) % n;
    assert i - start == q * n + (i - start) % n;
    assert d == (-q) * n + i;
    ModUnique(d, n, -q, i);
    assert TodaysDeity(Some(selected), d) == selected[i];
  }

  /** Euclidean division is unique: a quotient and a remainder below `n` are `/` and `%`. */
  lemma ModUnique(a: int, n: int, q: int, r: int)
    requires n > 0 && 0 <= r < n && a == q * n + r
    ensures a % n == r && a / n == q
  {
    var q' := a / n;
    var r' := a % n;
    assert a == q' * n + r';
    assert (q - q') * n == r' - r;
    if q > q' {
      MulAtLeast(q - q', n);
    } else if q < q' {
      MulAtLeast(q' - q, n);
    }
  }

  /** A positive multiple of `n` is at least `n`. */
  lemma {:induction false} MulAtLeast(k: int, n: int)
    requires k >= 1 && n > 0
    ensures k * n >= n
  {
    if k > 1 {
      MulAtLeast(k - 1, n);
      assert k * n == (k - 1) * n + n;
    }
  }

  /** Position of the first table entry with the given id (`Array.prototype.find`). */
  function FindDeity(table: seq<Deity>, id: string): (r: Option<nat>)
    ensures r.Some? ==> r.value < |table| && table[r.value].id == id
    ensures r.Some? ==> forall j :: 0 <= j < r.value ==> table[j].id != id
    ensures r.None? <==> forall j :: 0 <= j < |table| ==> table[j].id != id
  {
    if |table| == 0 then None
    else if table[0].id == id then Some(0)
    else match FindDeity(table[1..], id)
      case None => None
      case Some(j) => Some(j + 1)
  }

  /** `getDeityDisplay`: the entry with this id, or the written-out Ganesha record. */
  function DeityDisplay(id: string): (r: Deity)
    ensures (exists j :: 0 <= j < |DEITIES| && DEITIES[j].id == id) ==> r in DEITIES && r.id == id
    ensures (forall j :: 0 <= j < |DEITIES| ==> DEITIES[j].id != id) ==> r == GANESHA_DISPLAY
  {
    match FindDeity(DEITIES, id)
    case Some(j) => DEITIES[j]
    case None => GANESHA_DISPLAY
  }

  /** `getDeityById`: the entry with this id, or the first entry of the table. */
  function DeityById(id: string): (r: Deity)
    ensures r in DEITIES
    ensures (exists j :: 0 <= j < |DEITIES| && DEITIES[j].id == id) ==> r.id == id
    ensures (forall j :: 0 <= j < |DEITIES| ==> DEITIES[j].id != id) ==> r == DEITIES[0]
  {
    match FindDeity(DEITIES, id)
    case Some(j) => DEITIES[j]
    case None => DEITIES[0]
  }

  /** No two table entries share an id, so "the entry with this id" is unique. */
  lemma DeityIdsAreDistinct()
    ensures forall i, j :: 0 <= i < j < |DEITIES| ==> DEITIES[i].id != DEITIES[j].id
  {
  }

  /**
   * The two lookups agree on every id: the written-out fallback of
   * `getDeityDisplay` is exactly the first table entry `getDeityById` falls back to.
   */
  lemma DisplayAgreesWithById(id: string)
    ensures DeityDisplay(id) == DeityById(id)
  {
  }
}

=== FILE: deity_selection.dfy ===
/**
 * The onboarding deity-selection screen as a state machine: choose one
 * primary deity and up to three secondary deities, then continue.
 * The empty string stands for "no primary chosen yet", as in the source.
 */
module DeitySelection {
  import opened Wrappers
  import Schemas

  /** The screen's state: the primary, the secondaries in selection order, and the error shown. */
  datatype Selection = Selection(primary: string, secondaries: seq<string>, error: string)

  /** What pressing Continue does: stay on the screen with an error, or hand the choice on. */
  datatype ContinueOutcome =
    | Blocked(state: Selection)
    | Proceed(primary: string, secondaries: seq<string>)

  const MAX_SECONDARIES: nat := 3
  const TOO_MANY_ERROR: string := "Maximum 3 secondary deities allowed"
  const NO_PRIMARY_ERROR: string := "Please select your primary deity"

  /** The screen as first shown. */
  const INITIAL: Selection := Selection("", [], "")

  /** No id occurs twice. */
  predicate NoDuplicates(xs: seq<string>) {
    forall i, j :: 0 <= i < j < |xs| ==> xs[i] != xs[j]
  }

  /** The screen's invariant: at most three secondaries, none repeated, the primary never among them. */
  predicate Inv(s: Selection) {
    |s.secondaries| <= MAX_SECONDARIES && NoDuplicates(s.secondaries) && s.primary !in s.secondaries
  }

  /** `xs.filter(id => id !== x)`: every occurrence of `x` removed, the rest kept in order. */
  function Without(xs: seq<string>, x: string): (r: seq<string>)
    ensures x !in r
    ensures forall y :: y != x ==> (y in r <==> y in xs)
    ensures multiset(r) == multiset(xs)[x := 0]
    ensures x !in xs ==> r == xs
  {
    if |xs| == 0 then []
    else
      assert xs == [xs[0]] + xs[1..];
      (if xs[0] == x then [] else [xs[0]]) + Without(xs[1..], x)
  }

  /** Filtering works piecewise, so the surviving ids keep their relative order. */
  lemma {:induction false} WithoutDistributes(a: seq<string>, b: seq<string>, x: string)
    ensures Without(a + b, x) == Without(a, x) + Without(b, x)
  {
    if |a| > 0 {
      var head := if a[0] == x then [] else [a[0]];
      assert (a + b)[0] == a[0];
      assert (a + b)[1..] == a[1..] + b;
      assert Without(a + b, x) == head + Without(a[1..] + b, x);
      WithoutDistributes(a[1..], b, x);
      assert Without(a, x) == head + Without(a[1..], x);
    } else {
      assert a + b == b;
    }
  }

  /** Filtering never introduces a repeat. */
  lemma {:induction false} WithoutKeepsNoDuplicates(xs: seq<string>, x: string)
    requires NoDuplicates(xs)
    ensures NoDuplicates(Without(xs, x)) && |Without(xs, x)| <= |xs|
  {
    if |xs| > 0 {
      WithoutKeepsNoDuplicates(xs[1..], x);
      var rest := Without(xs[1..], x);
      assert xs[0] !in xs[1..];
      assert xs[0] !in rest;
    }
  }

  /**
   * `handlePrimarySelect`: make `id` the primary, drop it from the
   * secondaries (the others stay, in order) and clear the error.
   */
  function SelectPrimary(s: Selection, id: string): (r: Selection)
    ensures r.primary == id && r.error == ""
    ensures id !in r.secondaries
    ensures forall y :: y != id ==> (y in r.secondaries <==> y in s.secondaries)
    ensures id !in s.secondaries ==> r.secondaries == s.secondaries
  {
    Selection(id, Without(s.secondaries, id), "")
  }

  /**
   * `handleSecondaryToggle`: the primary cannot be toggled; a selected
   * secondary is removed; a new one is appended while fewer than three are
   * chosen, and otherwise the list stays and the limit error is shown.
   */
  function ToggleSecondary(s: Selection, id: string): (r: Selection)
    ensures r.primary == s.primary
    ensures id == s.primary ==> r == s
    ensures id != s.primary && id in s.secondaries ==>
              r.error == s.error && id !in r.secondaries &&
              (forall y :: y != id ==> (y in r.secondaries <==> y in s.secondaries)) &&
              r.secondaries == Without(s.secondaries, id)
    ensures id != s.primary && id !in s.secondaries && |s.secondaries| >= MAX_SECONDARIES ==>
              r == s.(error := TOO_MANY_ERROR)
    ensures id != s.primary && id !in s.secondaries && |s.secondaries| < MAX_SECONDARIES ==>
              r.error == s.error && r.secondaries == s.secondaries + [id]
  {
    if id == s.primary then s
    else if id in s.secondaries then s.(secondaries := Without(s.secondaries, id))
    else if |s.secondaries| >= MAX_SECONDARIES then s.(error := TOO_MANY_ERROR)
    else s.(secondaries := s.secondaries + [id])
  }

  /** `handleContinue`: refused with an error while no primary is chosen. */
  function Continue(s: Selection): (r: ContinueOutcome)
    ensures r.Proceed? <==> s.primary != ""
    ensures r.Proceed? ==> r.primary == s.primary && r.secondaries == s.secondaries
    ensures r.Blocked? ==> r.state == s.(error := NO_PRIMARY_ERROR)
  {
    if s.primary == "" then Blocked(s.(error := NO_PRIMARY_ERROR))
    else Proceed(s.primary, s.secondaries)
  }

  /** The screen starts in a state satisfying the invariant. */
  lemma InitialSatisfiesInv()
    ensures Inv(INITIAL)
  {
  }

  /** Choosing a primary keeps the invariant. */
  lemma SelectPrimaryPreservesInv(s: Selection, id: string)
    requires Inv(s)
    ensures Inv(SelectPrimary(s, id))
  {
    WithoutKeepsNoDuplicates(s.secondaries, id);
  }

  /** Toggling a secondary keeps the invariant. */
  lemma ToggleSecondaryPreservesInv(s: Selection, id: string)
    requires Inv(s)
    ensures Inv(ToggleSecondary(s, id))
  {
    if id != s.primary && id in s.secondaries {
      WithoutKeepsNoDuplicates(s.secondaries, id);
    }
  }

  /** Adding a new secondary and toggling it again restores the screen exactly. */
  lemma ToggleTwiceRestores(s: Selection, id: string)
    requires Inv(s) && id != s.primary && id !in s.secondaries && |s.secondaries| < MAX_SECONDARIES
    ensures ToggleSecondary(ToggleSecondary(s, id), id) == s
  {
    WithoutDistributes(s.secondaries, [id], id);
    assert Without([id], id) == [];
  }

  /** Once any primary has been chosen, Continue goes ahead with the current choice. */
  lemma ContinueAfterPrimary(s: Selection, id: string)
    requires id != ""
    ensures Continue(SelectPrimary(s, id)) == Proceed(id, Without(s.secondaries, id))
  {
  }

  /**
   * What the screen hands on is what the onboarding schema accepts for the
   * deity fields: a non-empty primary and at most three secondaries.
   */
  lemma ProceedPassesOnboardingSchema(s: Selection)
    requires Inv(s) && Continue(s).Proceed?
    ensures Schemas.PrimaryDeity(Continue(s).primary).Ok?
    ensures Schemas.OnboardingSecondaries(Some(Continue(s).secondaries)) == Ok(s.secondaries)
  {
  }
}

=== FILE: milestones.dfy ===
/**
 * The fixed table of celebrated streak lengths and the "next milestone"
 * lookup shown on the streaks screen.
 */
module Milestones {
  import opened Wrappers

  /** Celebrated streak lengths, in increasing order. */
  const MILESTONES: seq<int> := [3, 7, 21, 40]

  /** The largest (and last) celebrated length. */
  const LAST_MILESTONE: int := 40

  /** Exact membership in the table: day 8 does not re-trigger day 7. */
  predicate IsMilestone(n: int) {
    n in MILESTONES
  }

  /**
   * Index of the first element of `s` strictly greater than `c`, as
   * `Array.prototype.find` scans from the front; `None` when there is none.
   */
  function FirstAbove(s: seq<int>, c: int): (r: Option<nat>)
    ensures r.Some? ==> r.value < |s| && s[r.value] > c
    ensures r.Some? ==> forall j :: 0 <= j < r.value ==> s[j] <= c
    ensures r.None? <==> forall j :: 0 <= j < |s| ==> s[j] <= c
  {
    if |s| == 0 then None
    else if s[0] > c then Some(0)
    else match FirstAbove(s[1..], c)
      case None => None
      case Some(i) => Some(i + 1)
  }

  /**
   * The milestone the streaks screen announces next. An absent streak
   * (and, through `|| 0`, a zero one) counts as 0; once every milestone is
   * passed the last one is shown again.
   */
  function NextMilestone(currentStreak: Option<int>): (r: int)
    ensures r in MILESTONES
    ensures currentStreak.GetOr(0) < LAST_MILESTONE ==>
              r > currentStreak.GetOr(0) &&
              forall m :: m in MILESTONES && m > currentStreak.GetOr(0) ==> r <= m
    ensures currentStreak.GetOr(0) >= LAST_MILESTONE ==> r == LAST_MILESTONE
  {
    var current := currentStreak.GetOr(0);
    match FirstAbove(MILESTONES, current)
    case Some(i) => MILESTONES[i]
    case None => MILESTONES[|MILESTONES| - 1]
  }

  /** The "N days to go" figure: next milestone minus the displayed streak. */
  function DaysToGo(currentStreak: Option<int>): (r: int)
    ensures currentStreak.GetOr(0) < LAST_MILESTONE ==> 0 < r <= LAST_MILESTONE - currentStreak.GetOr(0)
    ensures currentStreak.GetOr(0) >= LAST_MILESTONE ==> r == LAST_MILESTONE - currentStreak.GetOr(0) && r <= 0
    ensures IsMilestone(currentStreak.GetOr(0) + r)
    ensures currentStreak.GetOr(0) < LAST_MILESTONE ==>
              forall m :: m in MILESTONES && m > currentStreak.GetOr(0) ==> currentStreak.GetOr(0) + r <= m
  {
    NextMilestone(currentStreak) - currentStreak.GetOr(0)
  }

  /** A fresh user (no streak yet) is pointed at the first milestone, 3 days away. */
  lemma MissingStreakTargetsFirstMilestone()
    ensures NextMilestone(None) == 3 && DaysToGo(None) == 3
    ensures NextMilestone(Some(0)) == 3
  {
  }
}

=== FILE: schemas.dfy ===
/**
 * The request validators: the reminder-time pattern, bounded integers,
 * string lengths and the secondary-deity limit. JSON numbers are `real`;
 * an integer check is `Floor` equality. Each validator answers the accepted
 * value (with the schema's default filled in) or the field it refused.
 */
module Schemas {
  import opened Wrappers
  import opened Decimal

  /** The field a validation refused. */
  datatype Issue = Invalid(field: string)

  // ---------------------------------------------------------------------
  // The reminder-time pattern ^([0-1]?[0-9]|2[0-3]):[0-5][0-9]$
  // ---------------------------------------------------------------------

  /** The hour alternative `[0-1]?[0-9]|2[0-3]`. */
  predicate HourField(h: string) {
    || (|h| == 1 && IsDigit(h[0]))
    || (|h| == 2 && '0' <= h[0] <= '1' && IsDigit(h[1]))
    || (|h| == 2 && h[0] == '2' && '0' <= h[1] <= '3')
  }

  /** The minute part `[0-5][0-9]`. */
  predicate MinuteField(m: string) {
    |m| == 2 && '0' <= m[0] <= '5' && IsDigit(m[1])
  }

  /** What the anchored pattern accepts: some colon splits the text into an hour and a minute field. */
  ghost predicate MatchesTimePattern(t: string) {
    exists i :: 0 <= i < |t| && t[i] == ':' && HourField(t[..i]) && MinuteField(t[i + 1..])
  }

  /** The pattern test, reading the split off the fixed minute width (characterised by `ReminderTestMatchesPattern`). */
  predicate IsReminderTime(t: string) {
    |t| >= 4 && t[|t| - 3] == ':' && HourField(t[..|t| - 3]) && MinuteField(t[|t| - 2..])
  }

  /** The minute field is the last two characters, so the colon can only sit third from the end. */
  lemma SplitIsForced(t: string, i: int)
    requires 0 <= i < |t| && MinuteField(t[i + 1..])
    ensures i == |t| - 3 && t[i + 1..] == t[|t| - 2..]
  {
  }

  /** The pattern test accepts exactly the strings the anchored pattern matches. */
  lemma ReminderTestMatchesPattern(t: string)
    ensures IsReminderTime(t) <==> MatchesTimePattern(t)
  {
    if IsReminderTime(t) {
      assert t[|t| - 3 + 1..] == t[|t| - 2..];
      assert t[|t| - 3] == ':' && HourField(t[..|t| - 3]) && MinuteField(t[|t| - 3 + 1..]);
    }
    if MatchesTimePattern(t) {
      var i :| 0 <= i < |t| && t[i] == ':' && HourField(t[..i]) && MinuteField(t[i + 1..]);
      SplitIsForced(t, i);
    }
  }

  /** The hour and minute an accepted reminder time denotes. */
  function ReminderClock(t: string): (hm: (nat, nat))
    requires IsReminderTime(t)
    ensures hm.0 < 24 && hm.1 < 60
  {
    var h := t[..|t| - 3];
    var m := t[|t| - 2..];
    HourBound(h);
    MinuteBound(m);
    (ParseNat(h), ParseNat(m))
  }

  lemma HourBound(h: string)
    requires HourField(h)
    ensures AllDigits(h) && ParseNat(h) < 24
  {
    if |h| == 2 {
      ParseTwoDigits(h);
    }
  }

  lemma MinuteBound(m: string)
    requires MinuteField(m)
    ensures AllDigits(m) && ParseNat(m) < 60
  {
    ParseTwoDigits(m);
  }

  /** `HH:MM` with both fields zero-padded to two digits. */
  function PaddedTime(hour: nat, minute: nat): string
    requires hour < 24 && minute < 60
  {
    PadStart2(NatToString(hour)) + ":" + PadStart2(NatToString(minute))
  }

  /**
   * Every time of day is accepted, written `HH:MM` or (hour below 10)
   * `H:MM`, and reads back as the same hour and minute.
   */
  lemma EveryTimeOfDayAccepted(hour: nat, minute: nat)
    requires hour < 24 && minute < 60
    ensures IsReminderTime(PaddedTime(hour, minute))
    ensures ReminderClock(PaddedTime(hour, minute)) == (hour, minute)
    ensures hour < 10 ==> IsReminderTime(NatToString(hour) + ":" + PadStart2(NatToString(minute)))
  {
    var h := PadStart2(NatToString(hour));
    var m := PadStart2(NatToString(minute));
    var t := h + ":" + m;
    ParseNatToString(hour);
    ParseNatToString(minute);
    TwoDigitField(h, 24);
    TwoDigitField(m, 60);
    assert t[..|t| - 3] == h && t[|t| - 2..] == m;
    if hour < 10 {
      var u := NatToString(hour) + ":" + m;
      assert u[..|u| - 3] == NatToString(hour) && u[|u| - 2..] == m;
    }
  }

  /** A two-digit string worth less than `bound` (24 or 60) fits the matching field. */
  lemma TwoDigitField(s: string, bound: nat)
    requires AllDigits(s) && |s| == 2 && ParseNat(s) < bound && (bound == 24 || bound == 60)
    ensures bound == 24 ==> HourField(s)
    ensures bound == 60 ==> MinuteField(s)
  {
    ParseTwoDigits(s);
  }

  /** The default reminder time of the preferences schema is itself valid. */
  lemma DefaultReminderTimeValid()
    ensures IsReminderTime("06:30") && ReminderClock("06:30") == (6, 30)
  {
    assert "06:30"[..2] == "06" && "06:30"[3..] == "30";
    assert "06"[..1] == "0";
    assert "30"[..1] == "3";
  }

  // ---------------------------------------------------------------------
  // Field validators
  // ---------------------------------------------------------------------

  /** `z.number().int()`: a whole number. */
  predicate IsInteger(x: real) {
    x.Floor as real == x
  }

  /** `z.number().int().min(lo)` and, when given, `.max(hi)`. */
  function BoundedInt(field: string, x: real, lo: int, hi: Option<int>): (r: Result<int, Issue>)
    ensures r.Ok? <==> IsInteger(x) && lo as real <= x && (hi.Some? ==> x <= hi.value as real)
    ensures r.Ok? ==> r.value as real == x && lo <= r.value && (hi.Some? ==> r.value <= hi.value)
    ensures r.Err? ==> r.error == Invalid(field)
  {
    if IsInteger(x) && lo as real <= x && (hi.Some? ==> x <= hi.value as real) then Ok(x.Floor)
    else Err(Invalid(field))
  }

  /** `steps_completed`: an integer from 0 to 8, 5 when absent. */
  function StepsCompleted(v: Option<real>): (r: Result<int, Issue>)
    ensures v.None? ==> r == Ok(5)
    ensures v.Some? ==> (r.Ok? <==> IsInteger(v.value) && 0.0 <= v.value <= 8.0)
    ensures r.Ok? ==> 0 <= r.value <= 8
    ensures v.Some? && r.Ok? ==> r.value as real == v.value
  {
    match v
    case None => Ok(5)
    case Some(x) => BoundedInt("steps_completed", x, 0, Some(8))
  }

  /** `duration_sec`: a required non-negative integer. */
  function DurationSec(x: real): (r: Result<int, Issue>)
    ensures r.Ok? <==> IsInteger(x) && x >= 0.0
    ensures r.Ok? ==> r.value >= 0 && r.value as real == x
  {
    BoundedInt("duration_sec", x, 0, None)
  }

  /** `current_streak` / `longest_streak`: a non-negative integer, 0 when absent. */
  function StreakCount(field: string, v: Option<real>): (r: Result<int, Issue>)
    ensures v.None? ==> r == Ok(0)
    ensures v.Some? ==> (r.Ok? <==> IsInteger(v.value) && v.value >= 0.0)
    ensures r.Ok? ==> r.value >= 0
    ensures v.Some? && r.Ok? ==> r.value as real == v.value
  {
    match v
    case None => Ok(0)
    case Some(x) => BoundedInt(field, x, 0, None)
  }

  /** `name`: between 1 and 100 characters. */
  function UserName(name: string): (r: Result<string, Issue>)
    ensures r.Ok? <==> 1 <= |name| <= 100
    ensures r.Ok? ==> r.value == name
  {
    if 1 <= |name| <= 100 then Ok(name) else Err(Invalid("name"))
  }

  /** `primary_deity`: at least one character. */
  function PrimaryDeity(id: string): (r: Result<string, Issue>)
    ensures r.Ok? <==> id != ""
    ensures r.Ok? ==> r.value == id
  {
    if |id| >= 1 then Ok(id) else Err(Invalid("primary_deity"))
  }

  /** Onboarding `secondary_deities`: at most three, the empty list when absent. */
  function OnboardingSecondaries(v: Option<seq<string>>): (r: Result<seq<string>, Issue>)
    ensures v.None? ==> r == Ok([])
    ensures v.Some? ==> (r.Ok? <==> |v.value| <= 3)
    ensures r.Ok? ==> |r.value| <= 3 && (v.Some? ==> r.value == v.value)
  {
    match v
    case None => Ok([])
    case Some(ids) => if |ids| <= 3 then Ok(ids) else Err(Invalid("secondary_deities"))
  }

  /** Preferences `secondary_deities`: any length, the empty list when absent. */
  function PreferenceSecondaries(v: Option<seq<string>>): (r: seq<string>)
    ensures v.Some? ==> r == v.value
    ensures v.None? ==> r == []
  {
    v.GetOr([])
  }

  /** Preferences `reminder_time`: matches the pattern, `"06:30"` when absent. */
  function PreferenceReminderTime(v: Option<string>): (r: Result<string, Issue>)
    ensures v.None? ==> r == Ok("06:30")
    ensures v.Some? ==> (r.Ok? <==> IsReminderTime(v.value))
    ensures r.Ok? ==> IsReminderTime(r.value)
    ensures v.Some? && r.Ok? ==> r.value == v.value
  {
    DefaultReminderTimeValid();
    match v
    case None => Ok("06:30")
    case Some(t) => if IsReminderTime(t) then Ok(t) else Err(Invalid("reminder_time"))
  }

  /** Onboarding `reminder_time`: required, and matches the same pattern. */
  function OnboardingReminderTime(t: string): (r: Result<string, Issue>)
    ensures r.Ok? <==> IsReminderTime(t)
    ensures r.Ok? ==> r.value == t
  {
    if IsReminderTime(t) then Ok(t) else Err(Invalid("reminder_time"))
  }

  // ---------------------------------------------------------------------
  // Whole requests
  // ---------------------------------------------------------------------

  /** A ritual-completion request body as received. */
  datatype RitualRequest = RitualRequest(
    userId: string, date: string, completed: Option<bool>, stepsCompleted: Option<real>,
    deityUsed: string, soundscapeOn: bool, durationSec: real)

  /** A validated ritual-completion entry, defaults filled in. */
  datatype RitualEntry = RitualEntry(
    userId: string, date: string, completed: bool, stepsCompleted: int,
    deityUsed: string, soundscapeOn: bool, durationSec: int)

  /** The ritual-history create schema. */
  function ParseRitualRequest(req: RitualRequest): (r: Result<RitualEntry, Issue>)
    ensures r.Ok? <==> StepsCompleted(req.stepsCompleted).Ok? && DurationSec(req.durationSec).Ok?
    ensures r.Ok? ==> && r.value.userId == req.userId && r.value.date == req.date
                      && r.value.completed == req.completed.GetOr(true)
                      && 0 <= r.value.stepsCompleted <= 8 && r.value.durationSec >= 0
                      && r.value.stepsCompleted as real == req.stepsCompleted.GetOr(5.0)
                      && r.value.durationSec as real == req.durationSec
                      && r.value.deityUsed == req.deityUsed && r.value.soundscapeOn == req.soundscapeOn
  {
    match StepsCompleted(req.stepsCompleted)
    case Err(e) => Err(e)
    case Ok(steps) =>
      match DurationSec(req.durationSec)
      case Err(e) => Err(e)
      case Ok(secs) =>
        Ok(RitualEntry(req.userId, req.date, req.completed.GetOr(true), steps, req.deityUsed, req.soundscapeOn, secs))
  }

  /** An onboarding submission as received. */
  datatype OnboardingRequest = OnboardingRequest(
    name: string, phoneOrEmail: Option<string>, primaryDeity: string,
    secondaryDeities: Option<seq<string>>, reminderTime: string, soundscapeDefaultOn: Option<bool>)

  /** A validated onboarding submission, defaults filled in. */
  datatype Onboarding = Onboarding(
    name: string, phoneOrEmail: Option<string>, primaryDeity: string,
    secondaryDeities: seq<string>, reminderTime: string, soundscapeDefaultOn: bool)

  /** The onboarding schema. */
  function ParseOnboarding(req: OnboardingRequest): (r: Result<Onboarding, Issue>)
    ensures r.Ok? <==> && 1 <= |req.name| <= 100 && req.primaryDeity != ""
                       && OnboardingSecondaries(req.secondaryDeities).Ok?
                       && IsReminderTime(req.reminderTime)
    ensures r.Ok? ==> && r.value.name == req.name && r.value.primaryDeity == req.primaryDeity
                      && |r.value.secondaryDeities| <= 3 && IsReminderTime(r.value.reminderTime)
                      && r.value.secondaryDeities == req.secondaryDeities.GetOr([])
                      && r.value.reminderTime == req.reminderTime
                      && r.value.phoneOrEmail == req.phoneOrEmail
                      && r.value.soundscapeDefaultOn == req.soundscapeDefaultOn.GetOr(true)
  {
    match UserName(req.name)
    case Err(e) => Err(e)
    case Ok(name) =>
      match PrimaryDeity(req.primaryDeity)
      case Err(e) => Err(e)
      case Ok(primary) =>
        match OnboardingSecondaries(req.secondaryDeities)
        case Err(e) => Err(e)
        case Ok(secondaries) =>
          match OnboardingReminderTime(req.reminderTime)
          case Err(e) => Err(e)
          case Ok(time) =>
            Ok(Onboarding(name, req.phoneOrEmail, primary, secondaries, time, req.soundscapeDefaultOn.GetOr(true)))
  }
}

=== FILE: stored_document.dfy ===
/**
 * The streak document as the two implementations read it from storage,
 * where either count may be missing. The web route reads the counts with
 * JavaScript's `||` defaults; the Python backend indexes `current_streak`
 * directly (a missing key raises) and reads `longest_streak` with a
 * default of 0. The lemmas here show that both readings agree with the
 * engine run on the document with missing counts taken as 0.
 */
module StoredDocument {
  import opened Wrappers
  import opened StreakEngine

  /** A stored streak document; `None` is a count the document does not carry. */
  datatype StoredStreak = StoredStreak(
    userId: string,
    currentStreak: Option<int>,
    longestStreak: Option<int>,
    lastCompletedDate: Option<string>,
    graceUsedInWindow: bool,
    windowStartDate: Option<string>)

  /** JavaScript's `x || d` on a stored count: a missing count and 0 are both falsy. */
  function OrElse(x: Option<int>, d: int): (r: int)
    ensures r == d <==> x.None? || x.value == 0 || x.value == d
    ensures x.Some? && x.value != 0 ==> r == x.value
  {
    if x.None? || x.value == 0 then d else x.value
  }

  /** The document read as an engine record, missing counts taken as 0. */
  function ReadStored(doc: StoredStreak): (r: StreakRecord)
    ensures r.userId == doc.userId && r.lastCompletedDate == doc.lastCompletedDate
    ensures r.currentStreak == doc.currentStreak.GetOr(0) && r.longestStreak == doc.longestStreak.GetOr(0)
    ensures r.graceUsedInWindow == doc.graceUsedInWindow && r.windowStartDate == doc.windowStartDate
  {
    StreakRecord(doc.userId, doc.currentStreak.GetOr(0), doc.longestStreak.GetOr(0),
                 doc.lastCompletedDate, doc.graceUsedInWindow, doc.windowStartDate)
  }

  /** Whether the stored date is truthy. */
  predicate DocHasPriorDate(doc: StoredStreak) {
    doc.lastCompletedDate.Some? && doc.lastCompletedDate.value != ""
  }

  /** The web route's new streak, computed on the document with its own `||` defaults. */
  function WebRouteNewStreak(doc: StoredStreak, today: string, dayOf: DayNumberOf): (r: int)
    ensures doc.currentStreak.None? ==> r == 1
    ensures doc.currentStreak.GetOr(0) >= 0 ==> r >= 1
  {
    if !DocHasPriorDate(doc) then 1
    else
      var diff := dayOf(today) - dayOf(doc.lastCompletedDate.value);
      if diff == 1 then OrElse(doc.currentStreak, 0) + 1
      else if diff == 0 then OrElse(doc.currentStreak, 1)
      else 1
  }

  /** The web route's `Math.max(streak.longest_streak || 0, newStreak)`. */
  function WebRouteLongest(doc: StoredStreak, newStreak: int): (r: int)
    ensures r >= newStreak && r >= OrElse(doc.longestStreak, 0)
    ensures r == newStreak || r == OrElse(doc.longestStreak, 0)
  {
    var stored := OrElse(doc.longestStreak, 0);
    if stored > newStreak then stored else newStreak
  }

  /**
   * The Python backend's new streak on the document: `None` where
   * `streak["current_streak"]` is evaluated on a document without that key.
   */
  function BackendNewStreak(doc: StoredStreak, today: string, dayOf: DayNumberOf): (r: Option<int>)
    ensures r.None? ==> doc.currentStreak.None? && DocHasPriorDate(doc)
    ensures !DocHasPriorDate(doc) ==> r == Some(1)
    ensures doc.currentStreak.GetOr(0) >= 0 && r.Some? ==> r.value >= 0
  {
    if !DocHasPriorDate(doc) then Some(1)
    else
      var diff := dayOf(today) - dayOf(doc.lastCompletedDate.value);
      if diff == 1 then (if doc.currentStreak.None? then None else Some(doc.currentStreak.value + 1))
      else if diff == 0 then doc.currentStreak
      else Some(1)
  }

  /** The backend's `max(streak.get("longest_streak", 0), new_streak)`. */
  function BackendLongest(doc: StoredStreak, newStreak: int): (r: int)
    ensures r >= newStreak && r >= doc.longestStreak.GetOr(0)
    ensures r == newStreak || r == doc.longestStreak.GetOr(0)
  {
    var stored := doc.longestStreak.GetOr(0);
    if stored > newStreak then stored else newStreak
  }

  /**
   * The web route's `||` defaults read a missing count exactly as 0: on any
   * completion that is not a same-date replay, the engine run on the document
   * with missing counts taken as 0 writes the streak and longest streak the
   * route computes on the raw document.
   */
  lemma WebRouteReadsMissingCountsAsZero(doc: StoredStreak, today: string, dayOf: DayNumberOf)
    requires doc.lastCompletedDate != Some(today)
    ensures var c := Complete(WebRoute, ReadStored(doc), today, dayOf);
            var s := WebRouteNewStreak(doc, today, dayOf);
            c.record.currentStreak == s && c.record.longestStreak == WebRouteLongest(doc, s)
  {
  }

  /** A document without a current count, completed on the next day, starts the web route's streak at 1. */
  lemma AbsentCurrentCountsAsZero(doc: StoredStreak, today: string, dayOf: DayNumberOf)
    requires doc.currentStreak.None? && DocHasPriorDate(doc) && doc.lastCompletedDate != Some(today)
    requires dayOf(today) == dayOf(doc.lastCompletedDate.value) + 1
    ensures WebRouteNewStreak(doc, today, dayOf) == 1
    ensures Complete(WebRoute, ReadStored(doc), today, dayOf).response.streak == 1
  {
    WebRouteReadsMissingCountsAsZero(doc, today, dayOf);
  }

  /**
   * The backend fails exactly when it needs a current count the document
   * lacks; otherwise it writes what the engine computes on the document
   * read with missing counts as 0.
   */
  lemma BackendReadsStoredDocument(doc: StoredStreak, today: string, dayOf: DayNumberOf)
    requires doc.lastCompletedDate != Some(today)
    ensures var s := BackendNewStreak(doc, today, dayOf);
            s.None? <==> doc.currentStreak.None? && DocHasPriorDate(doc)
                         && dayOf(today) - dayOf(doc.lastCompletedDate.value) in {0, 1}
    ensures var s := BackendNewStreak(doc, today, dayOf);
            var c := Complete(PythonBackend, ReadStored(doc), today, dayOf);
            s.Some? ==> c.record.currentStreak == s.value && c.record.longestStreak == BackendLongest(doc, s.value)
  {
  }
}

=== FILE: streak_engine.dfy ===
/**
 * The streak engine: given a user's streak record and the calendar date of
 * a ritual completion, decide the new streak, the new longest streak,
 * whether a milestone was reached, and how the record is updated.
 *
 * The same decision is implemented twice, once in the web route and once
 * in the Python backend; the two differ only when two unequal date strings
 * denote the same calendar day, which `Implementation` selects.
 *
 * Dates are kept as the strings the caller submitted. The calendar parse
 * (JavaScript's `new Date`, Python's `strptime`) is the parameter `dayOf`,
 * mapping a date string to its day number, so the day difference is a
 * subtraction of day numbers instead of milliseconds.
 */
module StreakEngine {
  import opened Wrappers
  import opened Milestones

  /** Maps a `YYYY-MM-DD` string to its calendar day number. */
  type DayNumberOf = string -> int

  /** One user's persisted streak state. */
  datatype StreakRecord = StreakRecord(
    userId: string,
    currentStreak: int,
    longestStreak: int,
    lastCompletedDate: Option<string>,
    graceUsedInWindow: bool,   // persisted, never read or written by the engine
    windowStartDate: Option<string>)

  /** Which copy of the decision logic runs. */
  datatype Implementation = WebRoute | PythonBackend

  /** What the completion endpoint answers. */
  datatype Response =
    | AlreadyCompleted(streak: int)
    | Completed(streak: int, longestStreak: int, milestone: bool)

  /** The record after the call (unchanged when nothing is written) and the answer. */
  datatype Completion = Completion(record: StreakRecord, response: Response)

  /** The all-zero record created the first time a user is seen. */
  function Fresh(userId: string): (r: StreakRecord)
    ensures r.userId == userId && r.currentStreak == 0 && r.longestStreak == 0
    ensures r.lastCompletedDate.None? && !r.graceUsedInWindow && r.windowStartDate.None?
  {
    StreakRecord(userId, 0, 0, None, false, None)
  }

  /** The record's invariant: counts are non-negative and longest bounds current. */
  predicate Valid(rec: StreakRecord) {
    0 <= rec.currentStreak <= rec.longestStreak
  }

  /**
   * Whether the stored date is truthy: absent and the empty string both
   * count as "never completed" in `if (lastCompleted)` / `if last_completed:`.
   */
  predicate HasPriorDate(rec: StreakRecord) {
    rec.lastCompletedDate.Some? && rec.lastCompletedDate.value != ""
  }

  /** The already-completed short-circuit: the two date strings are equal. */
  predicate SameDate(rec: StreakRecord, today: string) {
    rec.lastCompletedDate == Some(today)
  }

  /** Whole calendar days from the stored date to `today`. */
  function DaysSinceLast(rec: StreakRecord, today: string, dayOf: DayNumberOf): int
    requires HasPriorDate(rec)
  {
    dayOf(today) - dayOf(rec.lastCompletedDate.value)
  }

  /** The streak after a completion on `today` that is not a same-date replay. */
  function NewStreak(impl: Implementation, rec: StreakRecord, today: string, dayOf: DayNumberOf): int
  {
    if !HasPriorDate(rec) then 1
    else
      var diff := DaysSinceLast(rec, today, dayOf);
      if diff == 1 then rec.currentStreak + 1
      else if diff == 0 then
        (match impl
         case WebRoute => if rec.currentStreak == 0 then 1 else rec.currentStreak
         case PythonBackend => rec.currentStreak)
      else 1
  }

  /**
   * Record a ritual completion dated `today`. A same-date replay writes
   * nothing and reports the stored streak; any other date writes exactly the
   * three streak fields and reports the new streak, the new longest streak
   * and whether the new streak is one of the milestones.
   */
  function Complete(impl: Implementation, rec: StreakRecord, today: string, dayOf: DayNumberOf): (c: Completion)
    ensures SameDate(rec, today) ==> c == Completion(rec, AlreadyCompleted(rec.currentStreak))
    ensures !SameDate(rec, today) ==>
              && c.response.Completed?
              && c.record.userId == rec.userId
              && c.record.graceUsedInWindow == rec.graceUsedInWindow
              && c.record.windowStartDate == rec.windowStartDate
              && c.record.lastCompletedDate == Some(today)
              && c.response.streak == c.record.currentStreak
              && c.response.longestStreak == c.record.longestStreak
              && c.record.longestStreak >= rec.longestStreak
              && c.record.longestStreak >= c.record.currentStreak
              && (c.record.longestStreak == rec.longestStreak || c.record.longestStreak == c.record.currentStreak)
              && (c.response.milestone <==> c.record.currentStreak in [3, 7, 21, 40])
  {
    if SameDate(rec, today) then
      Completion(rec, AlreadyCompleted(rec.currentStreak))
    else
      var s := NewStreak(impl, rec, today, dayOf);
      var longest := if rec.longestStreak > s then rec.longestStreak else s;
      var updated := rec.(currentStreak := s, longestStreak := longest, lastCompletedDate := Some(today));
      Completion(updated, Completed(s, longest, IsMilestone(s)))
  }
}

=== FILE: streak_history.dfy ===
/**
 * Sequences of completions. A history of completion dates is replayed
 * through the engine from a fresh record, and the resulting record is
 * compared with a reference reading of the history: the current streak is
 * the run of consecutive calendar days at its end, the longest streak the
 * longest such run anywhere in it.
 */
module StreakHistory {
  import opened Wrappers
  import opened StreakEngine
  import StreakProperties

  /** The record after completions dated `dates[0]`, `dates[1]`, ... in order. */
  function Replay(impl: Implementation, rec: StreakRecord, dates: seq<string>, dayOf: DayNumberOf): StreakRecord
    decreases |dates|
  {
    if |dates| == 0 then rec
    else Complete(impl, Replay(impl, rec, dates[..|dates| - 1], dayOf), dates[|dates| - 1], dayOf).record
  }

  /** The calendar day of each date. */
  function DayNumbers(dates: seq<string>, dayOf: DayNumberOf): (ds: seq<int>)
    ensures |ds| == |dates|
    ensures forall i :: 0 <= i < |dates| ==> ds[i] == dayOf(dates[i])
  {
    seq(|dates|, i requires 0 <= i < |dates| => dayOf(dates[i]))
  }

  /** Drop every day equal to the one before it: repeated reports of one day count once. */
  function Collapse(ds: seq<int>): (c: seq<int>)
    ensures |c| <= |ds|
    ensures |ds| > 0 ==> |c| > 0 && c[|c| - 1] == ds[|ds| - 1]
  {
    if |ds| == 0 then []
    else
      var init := ds[..|ds| - 1];
      if |init| > 0 && init[|init| - 1] == ds[|ds| - 1] then Collapse(init)
      else Collapse(init) + [ds[|ds| - 1]]
  }

  /**
   * The length of the run of consecutive days ending at position `j`
   * (characterised by `RunAtIsMaximalRun`).
   */
  function RunAt(c: seq<int>, j: nat): (k: nat)
    requires j < |c|
    ensures 1 <= k <= j + 1
  {
    if j == 0 || c[j] != c[j - 1] + 1 then 1 else RunAt(c, j - 1) + 1
  }

  /** Each entry of `c[lo..hi+1]` is the day after the entry before it. */
  predicate SteppedRun(c: seq<int>, lo: int, hi: int)
    requires 0 <= lo && hi < |c|
  {
    forall i :: lo <= i < hi ==> c[i + 1] == c[i] + 1
  }

  /**
   * `RunAt(c, j)` is the length of the maximal run ending at `j`: the
   * entries in it step up by exactly one day, and the entry before it does not.
   */
  lemma {:induction false} RunAtIsMaximalRun(c: seq<int>, j: nat)
    requires j < |c|
    ensures SteppedRun(c, j - RunAt(c, j) + 1, j)
    ensures RunAt(c, j) <= j ==> c[j - RunAt(c, j) + 1] != c[j - RunAt(c, j)] + 1
  {
    if j > 0 && c[j] == c[j - 1] + 1 {
      RunAtIsMaximalRun(c, j - 1);
    }
  }

  /** The streak a collapsed history implies: the run ending at its last day. */
  function TrailingRun(c: seq<int>): nat {
    if |c| == 0 then 0 else RunAt(c, |c| - 1)
  }

  /** The longest run ending anywhere among the first `n` entries. */
  function LongestRun(c: seq<int>, n: nat): nat
    requires n <= |c|
  {
    if n == 0 then 0
    else
      var before := LongestRun(c, n - 1);
      var here := RunAt(c, n - 1);
      if before > here then before else here
  }

  /** `LongestRun(c, n)` bounds every run ending before `n` and is attained by one of them. */
  lemma {:induction false} LongestRunIsMaximum(c: seq<int>, n: nat)
    requires n <= |c|
    ensures forall j :: 0 <= j < n ==> RunAt(c, j) <= LongestRun(c, n)
    ensures n > 0 ==> exists j :: 0 <= j < n && RunAt(c, j) == LongestRun(c, n)
    ensures n == 0 ==> LongestRun(c, n) == 0
  {
    if n > 0 {
      LongestRunIsMaximum(c, n - 1);
      if n > 1 && LongestRun(c, n - 1) > RunAt(c, n - 1) {
        var j :| 0 <= j < n - 1 && RunAt(c, j) == LongestRun(c, n - 1);
        assert RunAt(c, j) == LongestRun(c, n);
      } else {
        assert RunAt(c, n - 1) == LongestRun(c, n);
      }
    }
  }

  /** Every submitted date is a non-empty string. */
  predicate NonEmptyDates(dates: seq<string>) {
    forall i :: 0 <= i < |dates| ==> dates[i] != ""
  }

  /** Each calendar day is written one way only: the date strings are canonical. */
  predicate CanonicalDates(dates: seq<string>, dayOf: DayNumberOf) {
    forall i, j :: 0 <= i < |dates| && 0 <= j < |dates| && dayOf(dates[i]) == dayOf(dates[j]) ==> dates[i] == dates[j]
  }

  /** Each date is the calendar day after the one before it. */
  predicate ConsecutiveDays(dates: seq<string>, dayOf: DayNumberOf) {
    forall i :: 0 < i < |dates| ==> dayOf(dates[i]) == dayOf(dates[i - 1]) + 1
  }

  /** Appending an entry does not change the runs ending before it. */
  lemma {:induction false} RunAtPrefix(c: seq<int>, x: int, j: nat)
    requires j < |c|
    ensures RunAt(c + [x], j) == RunAt(c, j)
  {
    if j > 0 && c[j] == c[j - 1] + 1 {
      RunAtPrefix(c, x, j - 1);
    }
  }

  /** Appending an entry does not change the longest run among the old entries. */
  lemma {:induction false} LongestRunPrefix(c: seq<int>, x: int, n: nat)
    requires n <= |c|
    ensures LongestRun(c + [x], n) == LongestRun(c, n)
  {
    if n > 0 {
      LongestRunPrefix(c, x, n - 1);
      RunAtPrefix(c, x, n - 1);
    }
  }

  /** Collapsing a history extended by one day. */
  lemma CollapseAppend(ds: seq<int>, x: int)
    ensures Collapse(ds + [x]) == if |ds| > 0 && ds[|ds| - 1] == x then Collapse(ds) else Collapse(ds) + [x]
  {
    assert (ds + [x])[..|ds|] == ds;
  }

  /**
   * One completion on a day other than the stored one moves the record from
   * the reading of a collapsed history to the reading of that history
   * extended by the new day.
   */
  lemma StepMatchesRuns(impl: Implementation, prev: StreakRecord, x: string, cPrev: seq<int>, dayOf: DayNumberOf)
    requires |cPrev| > 0 && HasPriorDate(prev) && !SameDate(prev, x)
    requires cPrev[|cPrev| - 1] == dayOf(prev.lastCompletedDate.value) != dayOf(x)
    requires prev.currentStreak == TrailingRun(cPrev) && prev.longestStreak == LongestRun(cPrev, |cPrev|)
    ensures var r := Complete(impl, prev, x, dayOf).record;
            var c := cPrev + [dayOf(x)];
            r.currentStreak == TrailingRun(c) && r.longestStreak == LongestRun(c, |c|)
  {
    var c := cPrev + [dayOf(x)];
    RunAtPrefix(cPrev, dayOf(x), |cPrev| - 1);
    LongestRunPrefix(cPrev, dayOf(x), |cPrev|);
    assert c[|cPrev| - 1] == cPrev[|cPrev| - 1];
  }

  /**
   * The reference reading of a history of dates: the record carries the
   * user, the trailing run as its current streak, the longest run as its
   * longest streak, and the last date submitted.
   */
  predicate ReadsHistory(r: StreakRecord, userId: string, dates: seq<string>, dayOf: DayNumberOf) {
    var c := Collapse(DayNumbers(dates, dayOf));
    && r.userId == userId
    && r.currentStreak == TrailingRun(c)
    && r.longestStreak == LongestRun(c, |c|)
    && r.lastCompletedDate == (if |dates| == 0 then None else Some(dates[|dates| - 1]))
  }

  /** The first completion of a history. */
  lemma FirstStep(impl: Implementation, prev: StreakRecord, userId: string, x: string, dayOf: DayNumberOf)
    requires ReadsHistory(prev, userId, [], dayOf)
    ensures ReadsHistory(Complete(impl, prev, x, dayOf).record, userId, [x], dayOf)
  {
    assert DayNumbers([x], dayOf) == [dayOf(x)];
    assert Collapse([dayOf(x)]) == [dayOf(x)];
  }

  /** A replay of the last date: nothing changes, and neither does the collapsed history. */
  lemma RepeatStep(impl: Implementation, prev: StreakRecord, userId: string, pre: seq<string>, dayOf: DayNumberOf)
    requires |pre| > 0 && ReadsHistory(prev, userId, pre, dayOf)
    ensures ReadsHistory(Complete(impl, prev, pre[|pre| - 1], dayOf).record, userId, pre + [pre[|pre| - 1]], dayOf)
  {
    var x := pre[|pre| - 1];
    var dsPre := DayNumbers(pre, dayOf);
    assert DayNumbers(pre + [x], dayOf) == dsPre + [dayOf(x)];
    CollapseAppend(dsPre, dayOf(x));
  }

  /** A completion on a day other than the last one extends the collapsed history by that day. */
  lemma NewDayStep(impl: Implementation, prev: StreakRecord, userId: string, pre: seq<string>, x: string, dayOf: DayNumberOf)
    requires |pre| > 0 && ReadsHistory(prev, userId, pre, dayOf)
    requires pre[|pre| - 1] != "" && x != pre[|pre| - 1] && dayOf(x) != dayOf(pre[|pre| - 1])
    ensures ReadsHistory(Complete(impl, prev, x, dayOf).record, userId, pre + [x], dayOf)
  {
    var dsPre := DayNumbers(pre, dayOf);
    assert DayNumbers(pre + [x], dayOf) == dsPre + [dayOf(x)];
    CollapseAppend(dsPre, dayOf(x));
    StepMatchesRuns(impl, prev, x, Collapse(dsPre), dayOf);
  }

  /** One more completion on a non-empty, canonical date keeps the record reading its history. */
  lemma HistoryStep(impl: Implementation, prev: StreakRecord, userId: string, pre: seq<string>, x: string, dayOf: DayNumberOf)
    requires ReadsHistory(prev, userId, pre, dayOf)
    requires x != "" && NonEmptyDates(pre) && CanonicalDates(pre + [x], dayOf)
    ensures ReadsHistory(Complete(impl, prev, x, dayOf).record, userId, pre + [x], dayOf)
  {
    if |pre| == 0 {
      FirstStep(impl, prev, userId, x, dayOf);
      assert pre + [x] == [x];
    } else {
      var dates := pre + [x];
      var last := pre[|pre| - 1];
      assert last == dates[|pre| - 1] && x == dates[|pre|];
      if x == last {
        RepeatStep(impl, prev, userId, pre, dayOf);
      } else {
        assert dayOf(x) != dayOf(last);
        NewDayStep(impl, prev, userId, pre, x, dayOf);
      }
    }
  }

  /**
   * Replaying canonical, non-empty dates from a fresh record yields exactly
   * the reference reading: the current streak is the trailing run of
   * consecutive days, the longest streak is the longest run, and the stored
   * date is the last one submitted. Holds for both implementations.
   */
  lemma {:induction false} ReplayMatchesRuns(impl: Implementation, userId: string, dates: seq<string>, dayOf: DayNumberOf)
    requires NonEmptyDates(dates) && CanonicalDates(dates, dayOf)
    ensures ReadsHistory(Replay(impl, Fresh(userId), dates, dayOf), userId, dates, dayOf)
  {
    if |dates| > 0 {
      var pre := dates[..|dates| - 1];
      var x := dates[|dates| - 1];
      assert dates == pre + [x];
      assert NonEmptyDates(pre);
      assert CanonicalDates(pre, dayOf) by {
        forall i, j | 0 <= i < |pre| && 0 <= j < |pre| && dayOf(pre[i]) == dayOf(pre[j])
          ensures pre[i] == pre[j]
        {
          assert pre[i] == dates[i] && pre[j] == dates[j];
        }
      }
      ReplayMatchesRuns(impl, userId, pre, dayOf);
      HistoryStep(impl, Replay(impl, Fresh(userId), pre, dayOf), userId, pre, x, dayOf);
    }
  }

  /** A run of consecutive days from a fresh record counts 1, 2, 3, ... and longest keeps pace. */
  lemma {:induction false} ConsecutiveRunCounts(impl: Implementation, userId: string, dates: seq<string>, dayOf: DayNumberOf)
    requires NonEmptyDates(dates) && ConsecutiveDays(dates, dayOf)
    ensures var r := Replay(impl, Fresh(userId), dates, dayOf);
            && r.currentStreak == |dates| && r.longestStreak == |dates|
            && r.lastCompletedDate == (if |dates| == 0 then None else Some(dates[|dates| - 1]))
  {
    if |dates| > 0 {
      var pre := dates[..|dates| - 1];
      assert NonEmptyDates(pre);
      assert ConsecutiveDays(pre, dayOf) by {
        forall i | 0 < i < |pre| ensures dayOf(pre[i]) == dayOf(pre[i - 1]) + 1 {
          assert pre[i] == dates[i] && pre[i - 1] == dates[i - 1];
        }
      }
      ConsecutiveRunCounts(impl, userId, pre, dayOf);
      if |pre| > 0 {
        assert dayOf(dates[|dates| - 1]) == dayOf(pre[|pre| - 1]) + 1;
      }
    }
  }

  /** The engine's answer to the k-th completion of a history replayed from `rec`. */
  function AnswerTo(impl: Implementation, rec: StreakRecord, dates: seq<string>, dayOf: DayNumberOf, k: nat): Response
    requires 1 <= k <= |dates|
  {
    Complete(impl, Replay(impl, rec, dates[..k - 1], dayOf), dates[k - 1], dayOf).response
  }

  /**
   * On the k-th of consecutive daily completions from a fresh record the
   * engine reports streak k, longest k, and a milestone exactly when k is
   * 3, 7, 21 or 40.
   */
  lemma ConsecutiveRunMilestones(impl: Implementation, userId: string, dates: seq<string>, dayOf: DayNumberOf, k: nat)
    requires NonEmptyDates(dates) && ConsecutiveDays(dates, dayOf)
    requires 1 <= k <= |dates|
    ensures AnswerTo(impl, Fresh(userId), dates, dayOf, k) == Completed(k, k, k in [3, 7, 21, 40])
  {
    var run := dates[..k];
    assert NonEmptyDates(run);
    assert ConsecutiveDays(run, dayOf) by {
      forall i | 0 < i < |run| ensures dayOf(run[i]) == dayOf(run[i - 1]) + 1 {
        assert run[i] == dates[i] && run[i - 1] == dates[i - 1];
      }
    }
    ConsecutiveRunCounts(impl, userId, run, dayOf);
    assert run[..k - 1] == dates[..k - 1];
  }

  /**
   * Eight consecutive daily completions from a fresh record: the milestone
   * fires on the 3rd and the 7th call and on no other.
   */
  lemma EightDayRunMilestones(impl: Implementation, userId: string, dates: seq<string>, dayOf: DayNumberOf)
    requires |dates| == 8 && NonEmptyDates(dates) && ConsecutiveDays(dates, dayOf)
    ensures forall k :: 1 <= k <= 8 ==> (AnswerTo(impl, Fresh(userId), dates, dayOf, k).milestone <==> k == 3 || k == 7)
  {
    forall k | 1 <= k <= 8
      ensures AnswerTo(impl, Fresh(userId), dates, dayOf, k).milestone <==> k == 3 || k == 7
    {
      ConsecutiveRunMilestones(impl, userId, dates, dayOf, k);
    }
  }

  /** Over any sequence of completions, on any dates, the record invariant holds throughout. */
  lemma {:induction false} ReplayPreservesValid(impl: Implementation, rec: StreakRecord, dates: seq<string>, dayOf: DayNumberOf)
    requires Valid(rec)
    ensures Valid(Replay(impl, rec, dates, dayOf))
  {
    if |dates| > 0 {
      ReplayPreservesValid(impl, rec, dates[..|dates| - 1], dayOf);
    }
  }

  /** The longest streak never decreases: a longer history has at least the longest streak of its prefix. */
  lemma {:induction false} LongestNeverDecreases(impl: Implementation, rec: StreakRecord, dates: seq<string>, dayOf: DayNumberOf, i: nat)
    requires i <= |dates|
    ensures Replay(impl, rec, dates[..i], dayOf).longestStreak <= Replay(impl, rec, dates, dayOf).longestStreak
  {
    if i < |dates| {
      LongestNeverDecreases(impl, rec, dates[..|dates| - 1], dayOf, i);
      assert dates[..|dates| - 1][..i] == dates[..i];
    } else {
      assert dates[..i] == dates;
    }
  }

  /**
   * The invariant of records the engine produces from a fresh one: counts
   * are non-negative, and once a (non-empty) date is stored the current
   * streak is at least 1.
   */
  predicate Started(r: StreakRecord) {
    0 <= r.currentStreak <= r.longestStreak && (HasPriorDate(r) ==> r.currentStreak >= 1)
  }

  /** Every record replayed from a fresh one, on any dates, satisfies `Started`. */
  lemma {:induction false} ReplayKeepsStarted(impl: Implementation, userId: string, dates: seq<string>, dayOf: DayNumberOf)
    ensures Started(Replay(impl, Fresh(userId), dates, dayOf))
  {
    if |dates| > 0 {
      ReplayKeepsStarted(impl, userId, dates[..|dates| - 1], dayOf);
    }
  }

  /**
   * The web route and the Python backend, fed the same completions from a
   * fresh record and reading dates through the same calendar parse, keep
   * identical records: the one input on which they differ, a stored date
   * with a zero streak, never arises.
   */
  lemma {:induction false} ImplementationsAgreeFromFresh(userId: string, dates: seq<string>, dayOf: DayNumberOf)
    ensures Replay(WebRoute, Fresh(userId), dates, dayOf) == Replay(PythonBackend, Fresh(userId), dates, dayOf)
  {
    if |dates| > 0 {
      var pre := dates[..|dates| - 1];
      ImplementationsAgreeFromFresh(userId, pre, dayOf);
      ReplayKeepsStarted(WebRoute, userId, pre, dayOf);
      var prev := Replay(WebRoute, Fresh(userId), pre, dayOf);
      var x := dates[|dates| - 1];
      if Complete(WebRoute, prev, x, dayOf) != Complete(PythonBackend, prev, x, dayOf) {
        StreakProperties.ImplementationsAgree(prev, x, dayOf);
      }
    }
  }
}

=== FILE: streak_properties.dfy ===
/**
 * Properties of a single call to the streak engine: the four transition
 * rules, idempotence of a same-date replay, the record invariant, and how
 * the two implementations relate.
 */
module StreakProperties {
  import opened Wrappers
  import opened StreakEngine

  /** First-ever completion (no stored date, or an empty one): the streak starts at 1. */
  lemma FirstCompletionStartsStreak(impl: Implementation, rec: StreakRecord, today: string, dayOf: DayNumberOf)
    requires !HasPriorDate(rec) && !SameDate(rec, today)
    ensures Complete(impl, rec, today, dayOf).response.streak == 1
    ensures Complete(impl, rec, today, dayOf).record.longestStreak == (if rec.longestStreak > 1 then rec.longestStreak else 1)
  {
  }

  /** A completion on the next calendar day extends the streak by one. */
  lemma NextDayExtendsStreak(impl: Implementation, rec: StreakRecord, today: string, dayOf: DayNumberOf)
    requires HasPriorDate(rec) && !SameDate(rec, today)
    requires dayOf(today) == dayOf(rec.lastCompletedDate.value) + 1
    ensures Complete(impl, rec, today, dayOf).response.streak == rec.currentStreak + 1
  {
  }

  /**
   * Two unequal date strings for the same calendar day: the web route keeps
   * the streak but lifts 0 to 1, the Python backend keeps it as it is.
   */
  lemma SameDayOtherSpelling(impl: Implementation, rec: StreakRecord, today: string, dayOf: DayNumberOf)
    requires HasPriorDate(rec) && !SameDate(rec, today)
    requires dayOf(today) == dayOf(rec.lastCompletedDate.value)
    ensures impl == WebRoute ==>
              Complete(impl, rec, today, dayOf).response.streak == (if rec.currentStreak == 0 then 1 else rec.currentStreak)
    ensures impl == PythonBackend ==>
              Complete(impl, rec, today, dayOf).response.streak == rec.currentStreak
  {
  }

  /** A gap of two or more days, or a backdated completion, resets the streak to 1. */
  lemma GapResetsStreak(impl: Implementation, rec: StreakRecord, today: string, dayOf: DayNumberOf)
    requires HasPriorDate(rec) && !SameDate(rec, today)
    requires dayOf(today) - dayOf(rec.lastCompletedDate.value) !in {0, 1}
    ensures Complete(impl, rec, today, dayOf).response.streak == 1
    ensures Complete(impl, rec, today, dayOf).record.longestStreak == (if rec.longestStreak > 1 then rec.longestStreak else 1)
  {
  }

  /**
   * Replaying a completion for the date just recorded changes nothing:
   * the second call writes nothing and reports the streak of the first.
   */
  lemma CompleteIsIdempotent(impl: Implementation, rec: StreakRecord, today: string, dayOf: DayNumberOf)
    ensures var once := Complete(impl, rec, today, dayOf);
            Complete(impl, once.record, today, dayOf) == Completion(once.record, AlreadyCompleted(once.record.currentStreak))
  {
  }

  /** Both implementations keep `0 <= current <= longest`. */
  lemma CompletePreservesValid(impl: Implementation, rec: StreakRecord, today: string, dayOf: DayNumberOf)
    requires Valid(rec)
    ensures Valid(Complete(impl, rec, today, dayOf).record)
  {
  }

  /**
   * Read through one calendar parse, the two implementations give the same
   * answer and write the same record except in one situation: unequal date
   * strings for the same day while the stored streak is 0. The source's two
   * parses can disagree by a day off UTC (`ParsesDisagreeOffUtc`); the
   * statement carries over whenever they agree on the day difference
   * (`OnlyTheDayDifferenceMatters`).
   */
  lemma ImplementationsAgree(rec: StreakRecord, today: string, dayOf: DayNumberOf)
    ensures Complete(WebRoute, rec, today, dayOf) != Complete(PythonBackend, rec, today, dayOf) <==>
              && HasPriorDate(rec) && !SameDate(rec, today)
              && dayOf(today) == dayOf(rec.lastCompletedDate.value)
              && rec.currentStreak == 0
  {
    if HasPriorDate(rec) && !SameDate(rec, today)
       && dayOf(today) == dayOf(rec.lastCompletedDate.value) && rec.currentStreak == 0 {
      assert Complete(WebRoute, rec, today, dayOf).response.streak == 1;
      assert Complete(PythonBackend, rec, today, dayOf).response.streak == 0;
    }
  }

  /**
   * A concrete input on which they differ: a zero streak stored under
   * "2024-1-10" and a completion submitted as "2024-01-10", which Python's
   * `strptime` reads as the same day. The web route answers 1, the backend 0.
   */
  lemma ImplementationsDivergeOnZeroDay()
    ensures var rec := StreakRecord("u", 0, 0, Some("2024-1-10"), false, None);
            var dayOf := (s: string) => 19732;
            && Complete(WebRoute, rec, "2024-01-10", dayOf).response == Completed(1, 1, false)
            && Complete(PythonBackend, rec, "2024-01-10", dayOf).response == Completed(0, 0, false)
  {
    var rec := StreakRecord("u", 0, 0, Some("2024-1-10"), false, None);
    assert !SameDate(rec, "2024-01-10") by {
      assert "2024-1-10"[5] != "2024-01-10"[5];
    }
  }

  /**
   * The engine reads the calendar parse only through the day difference:
   * two parses that agree on it give the same completion.
   */
  lemma OnlyTheDayDifferenceMatters(impl: Implementation, rec: StreakRecord, today: string,
                                    dayOf: DayNumberOf, otherDayOf: DayNumberOf)
    requires HasPriorDate(rec) ==>
               dayOf(today) - dayOf(rec.lastCompletedDate.value)
               == otherDayOf(today) - otherDayOf(rec.lastCompletedDate.value)
    ensures Complete(impl, rec, today, dayOf) == Complete(impl, rec, today, otherDayOf)
  {
    assert NewStreak(impl, rec, today, dayOf) == NewStreak(impl, rec, today, otherDayOf);
  }

  /**
   * JavaScript reads the ISO date "2024-01-10" at UTC midnight but "2024-1-11"
   * at local midnight, so on a server at UTC+5:30 the route sees a zero-day
   * difference (18.5 hours) where Python's `strptime` sees one day. With a
   * stored streak of 5 the web route keeps 5 and the backend writes 6.
   */
  lemma ParsesDisagreeOffUtc()
    ensures var rec := StreakRecord("u", 5, 5, Some("2024-01-10"), false, None);
            var webDayOf := (s: string) => 19732;
            var pyDayOf := (s: string) => if s == "2024-1-11" then 19733 else 19732;
            && Complete(WebRoute, rec, "2024-1-11", webDayOf).response == Completed(5, 5, false)
            && Complete(PythonBackend, rec, "2024-1-11", pyDayOf).response == Completed(6, 6, false)
  {
    var rec := StreakRecord("u", 5, 5, Some("2024-01-10"), false, None);
    assert !SameDate(rec, "2024-1-11") by {
      assert |"2024-01-10"| != |"2024-1-11"|;
    }
  }
}

=== FILE: streak_store.dfy ===
/**
 * The decision each streak endpoint makes about the streaks collection:
 * create the zero record when a user has none, and write the engine's
 * result back for that user only. The collection is a map keyed by user id.
 */
module StreakStore {
  import opened Wrappers
  import opened StreakEngine

  /** The streaks collection. */
  type Store = map<string, StreakRecord>

  /** Every record is filed under its own user id. */
  predicate Keyed(store: Store) {
    forall u :: u in store ==> store[u].userId == u
  }

  /** The collection after `init_streak`, and the record it answers with. */
  datatype InitResult = InitResult(store: Store, info: StreakRecord)

  /** The collection after a completion, and the endpoint's answer. */
  datatype StoreCompletion = StoreCompletion(store: Store, response: Response)

  /**
   * Python `init_streak`: insert the zero record only when the user has
   * none. It answers with the zero record even when a record already exists.
   */
  function InitStreak(store: Store, userId: string): (r: InitResult)
    ensures userId in r.store && r.store.Keys == store.Keys + {userId}
    ensures userId in store ==> r.store == store
    ensures userId !in store ==> r.store[userId] == Fresh(userId)
    ensures forall u :: u in store ==> r.store[u] == store[u]
    ensures r.info == Fresh(userId)
    ensures Keyed(store) ==> Keyed(r.store)
  {
    if userId in store then InitResult(store, Fresh(userId))
    else InitResult(store[userId := Fresh(userId)], Fresh(userId))
  }

  /** The stored record, or the zero record the endpoint creates for a new user. */
  function RecordOf(store: Store, userId: string): StreakRecord {
    if userId in store then store[userId] else Fresh(userId)
  }

  /**
   * The completion endpoint around the engine: get or create the user's
   * record, run the engine, and write the three streak fields back unless
   * the date was already recorded. Other users' records are untouched.
   */
  function CompleteRitual(impl: Implementation, store: Store, userId: string, today: string, dayOf: DayNumberOf): (r: StoreCompletion)
    ensures r.store.Keys == store.Keys + {userId}
    ensures forall u :: u in store && u != userId ==> r.store[u] == store[u]
    ensures r.store[userId] == Complete(impl, RecordOf(store, userId), today, dayOf).record
    ensures r.response == Complete(impl, RecordOf(store, userId), today, dayOf).response
    ensures r.response.AlreadyCompleted? ==> r.store == InitStreak(store, userId).store
    ensures Keyed(store) ==> Keyed(r.store)
  {
    var created := InitStreak(store, userId).store;
    var rec := created[userId];
    var c := Complete(impl, rec, today, dayOf);
    if c.response.AlreadyCompleted? then StoreCompletion(created, c.response)
    else StoreCompletion(created[userId := c.record], c.response)
  }

  /** Initialising twice is the same as initialising once. */
  lemma InitStreakIsIdempotent(store: Store, userId: string)
    ensures InitStreak(InitStreak(store, userId).store, userId) == InitStreak(store, userId)
  {
  }

  /** Submitting the same completion twice leaves the collection as the first submission did. */
  lemma CompleteRitualIsIdempotent(impl: Implementation, store: Store, userId: string, today: string, dayOf: DayNumberOf)
    ensures var once := CompleteRitual(impl, store, userId, today, dayOf);
            var twice := CompleteRitual(impl, once.store, userId, today, dayOf);
            twice.store == once.store && twice.response == AlreadyCompleted(once.store[userId].currentStreak)
  {
    var once := CompleteRitual(impl, store, userId, today, dayOf);
    assert userId in once.store;
    assert RecordOf(once.store, userId) == once.store[userId];
    assert once.store[userId].lastCompletedDate == Some(today) || SameDate(RecordOf(store, userId), today);
  }
}

=== FILE: timer.dfy ===
/**
 * The countdown timer shown on timed ritual steps: its `m:ss` display and
 * its once-a-second tick, pause, resume and reset transitions. One call of
 * `Tick` stands for one firing of the one-second interval.
 */
module Timer {
  import opened Wrappers
  import opened Decimal

  /** `formatTime`: whole minutes, a colon, and the remaining seconds padded to two digits. */
  function FormatTime(seconds: nat): (r: string)
    ensures |r| >= 4 && r[|r| - 3] == ':'
    ensures AllDigits(r[..|r| - 3]) && AllDigits(r[|r| - 2..])
    ensures '0' <= r[|r| - 2] <= '5'
    ensures seconds < 600 ==> |r| == 4
    ensures |r| == 4 || r[0] != '0'
  {
    var mins := NatToString(seconds / 60);
    var secs := PadStart2(NatToString(seconds % 60));
    ParseNatToString(seconds % 60);
    TensDigitBound(secs);
    var r := mins + ":" + secs;
    assert r[..|r| - 3] == mins && r[|r| - 2..] == secs;
    r
  }

  /** Two digits worth less than 60 start with a digit from 0 to 5. */
  lemma TensDigitBound(s: string)
    requires AllDigits(s) && |s| == 2 && ParseNat(s) < 60
    ensures '0' <= s[0] <= '5'
  {
    ParseTwoDigits(s);
  }

  /** Read an `m:ss` display back into seconds; `None` for anything else. */
  function ReadTime(t: string): (r: Option<nat>)
    ensures r.Some? ==> |t| >= 4 && t[|t| - 3] == ':'
  {
    if |t| < 4 || t[|t| - 3] != ':' then None
    else
      match ReadDigits(t[..|t| - 3])
      case None => None
      case Some(m) =>
        match ReadDigits(t[|t| - 2..])
        case None => None
        case Some(sec) => Some(m * 60 + sec)
  }

  /** Reading back a minutes field, a colon and a two-digit seconds field. */
  lemma ReadJoined(mins: string, secs: string)
    requires |mins| >= 1 && AllDigits(mins) && |secs| == 2 && AllDigits(secs)
    ensures ReadTime(mins + ":" + secs) == Some(ParseNat(mins) * 60 + ParseNat(secs))
  {
    var t := mins + ":" + secs;
    ConcatSlices(mins + ":", secs);
    ConcatSlices(mins, ":");
    assert |t| - 3 == |mins| && |t| - 2 == |mins + ":"|;
    assert t[..|t| - 3] == mins by {
      assert t[..|mins + ":"|][..|mins|] == t[..|mins|];
    }
    assert t[|t| - 3] == ':' by {
      assert t[|t| - 3] == (mins + ":")[|mins|];
    }
    ReadDigitsOfDigits(mins);
    ReadDigitsOfDigits(secs);
  }

  /** Splitting a concatenation where it was joined gives back its parts. */
  lemma ConcatSlices(a: string, b: string)
    ensures (a + b)[..|a|] == a && (a + b)[|a|..] == b
  {
  }

  /** The display is faithful: reading it back gives the seconds shown. */
  lemma FormatTimeRoundTrip(seconds: nat)
    ensures ReadTime(FormatTime(seconds)) == Some(seconds)
  {
    var mins := NatToString(seconds / 60);
    var secs := PadStart2(NatToString(seconds % 60));
    assert FormatTime(seconds) == mins + ":" + secs;
    ParseNatToString(seconds / 60);
    ParseNatToString(seconds % 60);
    ReadJoined(mins, secs);
    MinutesAndSeconds(seconds);
  }

  /** Whole minutes and leftover seconds add back up to the total. */
  lemma MinutesAndSeconds(seconds: nat)
    ensures (seconds / 60) * 60 + seconds % 60 == seconds
  {
  }

  /** The timer's state; `duration` is fixed for the lifetime of the component. */
  datatype TimerState = TimerState(duration: int, timeLeft: int, running: bool)

  /** A tick's new state, and whether it fired the completion callback. */
  datatype TickResult = TickResult(state: TimerState, completed: bool)

  /**
   * The timer as mounted: full time left, running when `autoStart` is set.
   * The component's default `autoStart = true` is not modelled; the flag is
   * always passed.
   */
  function Mount(duration: int, autoStart: bool): (r: TimerState)
    ensures duration >= 0 ==> Valid(r)
    ensures r.timeLeft == r.duration == duration
    ensures Ticking(r) <==> autoStart && duration > 0
  {
    TimerState(duration, duration, autoStart)
  }

  /** The interval is installed only while running with time left. */
  predicate Ticking(st: TimerState) {
    st.running && st.timeLeft > 0
  }

  /** `0 <= timeLeft <= duration`. */
  predicate Valid(st: TimerState) {
    0 <= st.timeLeft <= st.duration
  }

  /**
   * One interval firing: at one second or less left the timer stops at 0
   * and fires the completion callback, otherwise it counts down by one.
   * Without an interval nothing happens.
   */
  function Tick(st: TimerState): (r: TickResult)
    ensures !Ticking(st) ==> r == TickResult(st, false)
    ensures Ticking(st) ==> r.state.duration == st.duration && r.state.timeLeft == st.timeLeft - 1 >= 0
    ensures Ticking(st) ==> (r.state.running <==> st.timeLeft > 1)
    ensures r.completed <==> Ticking(st) && st.timeLeft == 1
  {
    if !Ticking(st) then TickResult(st, false)
    else if st.timeLeft <= 1 then TickResult(st.(timeLeft := 0, running := false), true)
    else TickResult(st.(timeLeft := st.timeLeft - 1), false)
  }

  /** The Pause button, shown while running. */
  function Pause(st: TimerState): (r: TimerState)
    ensures !r.running && r.timeLeft == st.timeLeft && r.duration == st.duration
  {
    if st.running then st.(running := false) else st
  }

  /** The Start button, shown while stopped with time left. */
  function Resume(st: TimerState): (r: TimerState)
    ensures r.timeLeft == st.timeLeft && r.duration == st.duration
    ensures r.running <==> st.running || st.timeLeft > 0
  {
    if !st.running && st.timeLeft > 0 then st.(running := true) else st
  }

  /** The Reset button, shown once some time has elapsed: full time left, stopped. */
  function Reset(st: TimerState): (r: TimerState)
    ensures st.timeLeft < st.duration ==> r == Mount(st.duration, false)
    ensures st.timeLeft >= st.duration ==> r == st
  {
    if st.timeLeft < st.duration then TimerState(st.duration, st.duration, false) else st
  }

  /** Every transition keeps `0 <= timeLeft <= duration`: the display never goes negative. */
  lemma TransitionsPreserveValid(st: TimerState)
    requires Valid(st)
    ensures Valid(Tick(st).state) && Valid(Pause(st)) && Valid(Resume(st)) && Valid(Reset(st))
  {
  }

  /** The state after `n` interval firings, and how many of them fired the completion callback. */
  function RunTicks(st: TimerState, n: nat): (TimerState, nat)
    decreases n
  {
    if n == 0 then (st, 0)
    else
      var (before, fired) := RunTicks(st, n - 1);
      var t := Tick(before);
      (t.state, fired + if t.completed then 1 else 0)
  }

  /**
   * A running countdown from `t` seconds: after `n` firings, `max(t - n, 0)`
   * seconds are left, it is still running while `n < t`, and the completion
   * callback has fired exactly once if `n >= t`, never before.
   */
  lemma {:induction false} CountdownCompletesOnce(st: TimerState, n: nat)
    requires st.running && st.timeLeft >= 1
    ensures var (end, fired) := RunTicks(st, n);
            && end.duration == st.duration
            && end.timeLeft == (if n < st.timeLeft then st.timeLeft - n else 0)
            && (end.running <==> n < st.timeLeft)
            && fired == (if n < st.timeLeft then 0 else 1)
  {
    if n > 0 {
      CountdownCompletesOnce(st, n - 1);
    }
  }

  /** Resetting twice is the same as resetting once, and a reset timer stands stopped at full time. */
  lemma ResetIsIdempotent(st: TimerState)
    ensures Reset(Reset(st)) == Reset(st)
    ensures st.timeLeft < st.duration ==> !Ticking(Reset(st)) && Reset(st).timeLeft == st.duration
  {
  }
}

=== FILE: weekday_deity.dfy ===
/**
 * The deity of the day of the week. Weekdays are numbered from Monday = 0
 * to Sunday = 6; the web endpoint converts JavaScript's Sunday-based
 * `getDay()` first, the Python endpoint reads a Monday-based weekday
 * directly. The clock read is a parameter here.
 */
module WeekdayDeity {
  import opened Wrappers

  /** Monday-based weekday to deity; Thursday (3) and Saturday (5) have none. */
  const WEEKDAY_DEITY_MAP: map<int, string> := map[0 := "shiva", 1 := "hanuman", 2 := "ganesha", 4 := "durga", 6 := "krishna"]

  const DEVOTION_PREFIX: string := "Today is a day of devotion to "
  const FALLBACK_MESSAGE: string := "Continue your devotion today"

  /** What both endpoints answer. */
  datatype WeekdayAnswer = WeekdayAnswer(weekday: int, deity: Option<string>, message: string)

  /** Monday-based index of a Sunday-based `getDay()` value: Sunday (0) becomes 6, every other day moves down one. */
  function MondayBased(sundayBased: int): (m: int)
    requires 0 <= sundayBased < 7
    ensures 0 <= m < 7
    ensures (m + 1) % 7 == sundayBased
  {
    if sundayBased == 0 then 6 else sundayBased - 1
  }

  /** The inverse conversion, Monday-based back to `getDay()` numbering. */
  function SundayBased(mondayBased: int): (w: int)
    requires 0 <= mondayBased < 7
    ensures 0 <= w < 7
  {
    (mondayBased + 1) % 7
  }

  /** The conversion is a bijection on 0..6: the two conversions undo each other. */
  lemma ConversionIsBijection(w: int, m: int)
    requires 0 <= w < 7 && 0 <= m < 7
    ensures SundayBased(MondayBased(w)) == w
    ensures MondayBased(SundayBased(m)) == m
    ensures MondayBased(w) == m <==> w == SundayBased(m)
  {
  }

  /** The deity of a Monday-based weekday, absent when the map has no entry. */
  function DeityOfWeekday(weekday: int): (r: Option<string>)
    ensures r.Some? <==> weekday in WEEKDAY_DEITY_MAP
    ensures r.Some? ==> r.value == WEEKDAY_DEITY_MAP[weekday] && r.value != ""
  {
    if weekday in WEEKDAY_DEITY_MAP then Some(WEEKDAY_DEITY_MAP[weekday]) else None
  }

  /** `s` begins with `prefix`. */
  predicate StartsWith(s: string, prefix: string) {
    |prefix| <= |s| && s[..|prefix|] == prefix
  }

  /** The message names the deity when there is one, and is the fixed fallback otherwise. */
  function DevotionMessage(deity: Option<string>): (msg: string)
    ensures deity.Some? ==> StartsWith(msg, DEVOTION_PREFIX) && msg[|DEVOTION_PREFIX|..] == deity.value
    ensures deity.None? ==> msg == FALLBACK_MESSAGE
  {
    match deity
    case Some(d) => DEVOTION_PREFIX + d
    case None => FALLBACK_MESSAGE
  }

  /** The web endpoint, given JavaScript's Sunday-based `getDay()` value. */
  function WebWeekdayDeity(getDay: int): (r: WeekdayAnswer)
    requires 0 <= getDay < 7
    ensures 0 <= r.weekday < 7 && SundayBased(r.weekday) == getDay
    ensures r.deity == DeityOfWeekday(r.weekday)
    ensures r.message == DevotionMessage(r.deity)
  {
    var weekday := MondayBased(getDay);
    var deity := DeityOfWeekday(weekday);
    WeekdayAnswer(weekday, deity, DevotionMessage(deity))
  }

  /** The Python endpoint, given `datetime.weekday()` (already Monday-based). */
  function BackendWeekdayDeity(weekday: int): (r: WeekdayAnswer)
    requires 0 <= weekday < 7
    ensures r.weekday == weekday && r.deity == DeityOfWeekday(weekday)
    ensures r.message == DevotionMessage(r.deity)
  {
    var deity := DeityOfWeekday(weekday);
    WeekdayAnswer(weekday, deity, DevotionMessage(deity))
  }

  /** The map covers exactly Monday, Tuesday, Wednesday, Friday and Sunday. */
  lemma MapCoversFiveWeekdays()
    ensures WEEKDAY_DEITY_MAP.Keys == {0, 1, 2, 4, 6}
  {
  }

  /** On the same calendar day the two endpoints give the same answer. */
  lemma EndpointsAgree(getDay: int)
    requires 0 <= getDay < 7
    ensures WebWeekdayDeity(getDay) == BackendWeekdayDeity(MondayBased(getDay))
  {
  }

  /** Thursday and Saturday have no deity, and the message falls back. */
  lemma ThursdayAndSaturdayFallBack(weekday: int)
    requires weekday == 3 || weekday == 5
    ensures BackendWeekdayDeity(weekday) == WeekdayAnswer(weekday, None, FALLBACK_MESSAGE)
  {
  }

  /** The message mentions a deity exactly when one was found. */
  lemma MessageMentionsDeityIffFound(deity: Option<string>)
    ensures StartsWith(DevotionMessage(deity), DEVOTION_PREFIX) <==> deity.Some?
  {
    if deity.None? {
      assert |FALLBACK_MESSAGE| < |DEVOTION_PREFIX|;
    }
  }

  /** The message names the deity unambiguously: different lookups give different messages. */
  lemma MessageDeterminesDeity(a: Option<string>, b: Option<string>)
    ensures DevotionMessage(a) == DevotionMessage(b) ==> a == b
  {
    MessageMentionsDeityIffFound(a);
    MessageMentionsDeityIffFound(b);
  }
}

=== FILE: wrappers.dfy ===
/** Optional values and validation results shared by the other modules. */
module Wrappers {

  /** A value that may be absent: JavaScript's `null`/`undefined`, Python's `None`. */
  datatype Option<+T> = None | Some(value: T) {

    /** The wrapped value, or `default` when absent. */
    function GetOr(default: T): T {
      match this
      case Some(v) => v
      case None => default
    }
  }

  /** The outcome of a validation: the accepted value or the reason it was refused. */
  datatype Result<+T, +E> = Ok(value: T) | Err(error: E)
}
